=== FILE: README.md ===
# escape-game: the per-tick simulation, in Dafny

A model of the simulation core of a small pygame platformer (tmatsune/escape-game):

- the player's physics step and its squash-and-stretch controller (`data/entities.py`);
- the glow particle and the frame-file ordering of its image strips (`data/particles.py`);
- the glue in `main.py`:
  - the event handler and its level tables;
  - the map bounding box fold of `Data.load_map`, `Data.reset` and the camera clamp;
  - the update-and-prune passes over glow particles, enemy projectiles, circles and sparks;
  - the level-1 state machine with its one-shot 14-projectile volley;
  - the screenshake countdown;
  - the key and mouse handling of `App.check_inputs`.

Python floats are exact `real`s. Randomness, trigonometry, the movement code of the entity base class and the particle image table come in as parameters.

Modules:

| file | module | models |
|---|---|---|
| common.dfy | Common | 2-D vectors, colours, `Option`, and the `Result`/`Fault` pair that stands for the Python exceptions the code can raise |
| entities.dfy | Entities | `Player.update`, `Player.jump`, `Player.squash_effect` |
| filesort.dfy | FileSort | `particle_file_sort`: Python's `int()` on the names, `list.sort`, `str(n) + '.png'` |
| particles.dfy | Particles | `Particle.__init__`, `Particle.update`, and the game loop's particle pass |
| prune.dfy | Prune | the "iterate a copy, update, `remove` the dead" loop, proved equal to a map-then-filter |
| effects.dfy | Effects | the spark, circle and projectile passes; the level-1 volley; the click spark |
| mapedges.dfy | MapEdges | the edge fold of `load_map` (as written and corrected) and the camera |
| events.dfy | Events | `Event_Handler` |
| world.dfy | World | `Data`, `reset`, `load_map`, the level mechanics, one tick of `App.render`, `check_inputs`, the game loop |

## What main.py does and does not do

- `main.py` has no dodge charges, lives or hurt handling.
- It has no pixel-mask hit detection and no spawn-rate tables.
- It has no TUTORIAL, DEAD or WIN phase and no wipe transition.
- `State.TRANSITION` exists, but nothing enters it and no branch handles it.
- Exactly one enemy volley exists. It comes from the right edge of the view, flies left, and fires on the first running tick of level 1.

## Model

| member | source | states |
|---|---|---|
| Entities.HorizontalVelocity | data/entities.py:45 | the horizontal velocity is (right − left) × 4: −4, 0 or 4, and 0 exactly when both or neither key is held |
| Entities.Gravity | data/entities.py:46 | after gravity the vertical velocity is min(14, v + 1), never above 14 |
| Entities.NextAction | data/entities.py:34-39 | left or right sets run; no input on the ground outside hurt sets idle; otherwise the state is kept |
| Entities.NextFlip | data/entities.py:40-43 | left faces left, right alone faces right, neither keeps the facing |
| Entities.ClampScale | data/entities.py:92 | the vertical scale is clamped into [0.3, 1.5] and left alone inside it |
| Entities.PullToRest | data/entities.py:95-102 | the pull towards scale 1 and the drag towards 0 move the squish velocity the right way by at most 0.042 |
| Entities.SquashEffect | data/entities.py:89-111 | the scale stays in [0.3, 1.5], and the horizontal scale mirrors the clamped scale from before the snap (2 − scale); a moving controller inside the 0.06 band snaps to exactly (1, 0); a hard landing (velocity > 6 after gravity) sets the squish velocity to −0.14 and overrides the snap |
| Entities.Update | data/entities.py:31-63 | one physics step, given the movement result: the scale controller is `squash_effect` on the moved, post-gravity body; the step keeps the player invariant; a down collision zeroes the vertical velocity and air time and restores both jumps, otherwise air time grows by 1; the fire timer resets unless the mouse is held |
| Entities.DoJump | data/entities.py:65-68 | with a charge left, a jump sets velocity −10 and spends one; with none it changes nothing |
| Entities.NewPlayer | data/entities.py:12-29 | a new player starts at rest with both jumps, scale (1, 1), fire rate and timer 4, and satisfies the player invariant |
| Entities.UpdatePreservesValid | data/entities.py:31-63 | the invariant (jumps ≤ 2, vertical velocity ≤ 14, horizontal in {−4, 0, 4}, scales in range) survives a step |
| Entities.JumpPreservesValid | data/entities.py:65-68 | the invariant survives a jump; jumps never go negative |
| Entities.TwoJumpsThenNone | data/entities.py:9-68 | from the ground exactly two jumps fire; the third press changes nothing |
| Entities.RestIsFixedPoint | data/entities.py:89-111 | a controller at rest stays at rest without a hard landing |
| Entities.RunOpsValid | data/entities.py:31-68 | the player invariant holds after any interleaving of jumps and physics steps, including several jumps between two steps (W jumps while paused, when no step runs) |
| Entities.PressesSpendAtMostTheCharges | data/entities.py:65-68 | n presses with no step between them leave max(0, jumps − n) charges; with none left they change nothing |
| FileSort.FrameNumberOfName | data/particles.py:24-28 | cutting ".png" off str(n) + ".png" and applying int() gives n back, for every integer n |
| FileSort.ParseShow | data/particles.py:24-28 | int(str(n)) == n, negative numbers included |
| FileSort.DropExtension | data/particles.py:24 | obj[:-4] drops the last four characters, and gives the empty string for shorter names |
| FileSort.SortInts | data/particles.py:25 | the sort returns an ascending permutation of the numbers |
| FileSort.AscendingPermutationUnique | data/particles.py:25 | two ascending permutations of the same numbers are equal, so the sorted order is unique |
| FileSort.FrameNumbers | data/particles.py:22-24 | every name parses, in order, or int() raises ValueError |
| FileSort.ParticleFileSort | data/particles.py:21-29 | fails exactly when some name does not parse; otherwise it returns as many names as it was given: the canonical names of the input's numbers in ascending order |
| FileSort.ParticleFileSortIsTheSortedOrder | data/particles.py:21-29 | the output is the ascending arrangement of the input's numbers |
| FileSort.CanonicalNamesArePermuted | data/particles.py:21-29 | on canonical names the sort returns a permutation of its input |
| FileSort.ParticleFileSortIdempotent | data/particles.py:21-29 | sorting a sorted listing changes nothing |
| Particles.Make | data/particles.py:68-81 | an unknown type raises KeyError; otherwise the fields are copied, time_left = strip length + 1 − start frame, temp motion is zero, render is on, and the random constant is in [2/3, 1] |
| Particles.Update | data/particles.py:94-108 | the frame grows by the decay rate; time_left follows it; running, render, "frame < strip length" and "time_left > 1" all agree (the inner +1 test has no effect); without physics the position moves by temp motion + motion, with physics it stays; temp motion resets |
| Particles.UpdateIgnoresDt | data/particles.py:94-95 | the dt argument is never read |
| Particles.AgeFrame | data/particles.py:94-103 | after n updates the frame has moved by n decay steps, and the particle runs exactly while that frame is short of the strip |
| Particles.UpdateAll | main.py:233-254 | the particle pass fails exactly when some particle has an unknown type (KeyError); otherwise it is the reference update-then-filter: every particle updated, the ones still rendering kept, in order, duplicates included |
| Particles.UpdateAllKeepsTheRunning | main.py:233-254 | the pass keeps at most the particles it was given, each rendering with a consistent time_left, and a particle's update survives exactly when the update returned True |
| Particles.ParticlePass | main.py:233-254 | the loop as written (iterate a copy, update in place, remove the dead) gives the same result as the pass, and fails on an unknown type |
| Particles.StepParticles | main.py:235 | outside GAME_ON no particle is updated or removed |
| Prune.PruneInPlace | main.py:274-297 | iterating a copy, updating in place and removing the dead by value gives exactly the updated live elements in order |
| Prune.PrunedMembers | main.py:274-297 | an element survives the pass exactly when it is the update of an input element and alive |
| Prune.PrunedAppend | main.py:274-297 | the pass over a concatenation is the concatenation of the passes |
| Prune.PrunedAllAlive | main.py:274-297 | when nothing dies the pass is a plain map |
| Prune.RemoveAfterLive | main.py:281-296 | removing a dead element by value, when only live elements come before it, removes exactly that element |
| Prune.LoneLifetime | main.py:274-297 | over repeated passes, a lone element whose death is final is still in the list exactly while its n-th update is alive, and the list is empty afterwards |
| Effects.AdvanceSpark | main.py:289-293 | a spark moves by speed along its angle, and its width drops by the decay while speed and length are scaled by their factors; nothing else changes |
| Effects.UpdateSparks | main.py:288-297 | every surviving spark has width > 0, and a spark survives exactly when width − decay > 0 |
| Effects.SparkAfterWidth | main.py:291 | after n ticks a spark's width has dropped by exactly n decays |
| Effects.SparkAfterSpeed | main.py:292 | after n ticks the speed is scaled by speed_decay to the n-th power |
| Effects.SparkAfterLength | main.py:293 | after n ticks the length is scaled by length_decay to the n-th power |
| Effects.SparkAfterKeepsHeading | main.py:288-293 | a spark's angle and colour never change |
| Effects.SparkLifetime | main.py:288-297 | a lone spark is present after n ticks exactly while its n-times-advanced self is alive; then the list stays empty |
| Effects.SparkOfWidthFourLasts34Ticks | main.py:288-297 | a spark of width 4 with decay 0.12 is still there after 33 ticks and gone after 34 |
| Effects.AdvanceCircle | main.py:277-279 | the radius grows by speed − speed_decay and the width is scaled by the decay; nothing else changes |
| Effects.UpdateCircles | main.py:274-281 | every surviving circle has width ≥ 1, and a circle survives exactly when width × decay ≥ 1 |
| Effects.MoveProjectiles | main.py:258-260 | every projectile moves by its velocity; none is removed and nothing else changes |
| Effects.ProjectilesAfter | main.py:258-260 | after n ticks every projectile is n velocity steps further on |
| Effects.VolleyProjectiles | main.py:320-321 | the volley is one column at x = WIDTH + offset x, starting at offset y, 22 apart, all with velocity (−1.8, 0), frame 0 and their drawn constant |
| Effects.VolleySparks | main.py:323-335 | three sparks per lane at the lane's origin, in loop order, with width 2–3, speed 8–10, length 10–11 and decays 0.12, 0.9, 0.97 |
| Effects.ClickSpark | main.py:383-389 | the click spark starts alive at the player's centre with decay 0.2 |
| MapEdges.StepAsWritten | main.py:74-84 | one iteration as written: the left and top edges only move outwards and reach the tile's top-left corner |
| MapEdges.FoldAsWritten | main.py:74-84 | the loop as written: left and top only move outwards, and once a tile is seen every edge not stuck at the wrong infinity is finite |
| MapEdges.AsWrittenFoldIsFinite | main.py:36-84 | from the infinite start values, the fold as written gives finite edges exactly when the map has a tile |
| MapEdges.FoldAsWrittenAppend | main.py:36-84 | the edges are never reset: with the fold as written, loading a and then b is one load of a + b in that order |
| MapEdges.AsWrittenMissesTheLastColumn | main.py:79-80 | as written, tiles (0,0) then (1,0) with 16-pixel cells give a right edge of 16, and the same tiles in the other order give 32 |
| MapEdges.FoldAsWrittenKeepsCorners | main.py:74-84 | what the fold as written does keep: edges[0] ≤ x ≤ edges[1] and edges[2] ≤ y ≤ edges[3] for every tile corner |
| MapEdges.Step | main.py:74-84 | one corrected step: the box only grows, takes in the whole tile, and each edge is kept or set to the tile's side |
| MapEdges.FoldEdgesCoversEveryTile | main.py:74-84 | after the corrected fold every tile lies inside the box, far sides included |
| MapEdges.FoldEdgesIsTight | main.py:74-84 | every edge is either its start value or a side of some tile |
| MapEdges.InitialFoldIsFinite | main.py:36-84 | from the infinite start values, the edges are all finite exactly when the map has a tile |
| MapEdges.FoldEdgesAppend | main.py:36-84 | with the corrected fold, loading a then b gives the box of both maps |
| MapEdges.SwapNeighbours | main.py:74-84 | with the corrected comparison the tile order does not matter |
| MapEdges.Follow | main.py:139-140 | the camera closes a twelfth of the gap to the player-centred target each tick |
| MapEdges.Clamp | main.py:141-149 | the view never extends past the high edge; it stays at or past the low edge when the map is at least a view wide; the high edge wins otherwise; an in-range value is left alone |
| MapEdges.Camera | main.py:139-149 | if edges[1] − edges[0] ≥ WIDTH then edges[0] ≤ offset x ≤ edges[1] − WIDTH, and likewise for y with HEIGHT |
| MapEdges.CameraAtRest | main.py:139-149 | a view at its target inside the box stays put |
| MapEdges.CameraClosesGap | main.py:139-149 | away from the edges the gap to the target shrinks by a factor 11/12 per tick |
| Events.NewHandler | main.py:87-101 | the handler starts at level 1, timer 0, GAME_ON, not running |
| Events.StartingPositions | main.py:94-99 | levels 0 and 1 have a spawn point; levels 2 and 3 are present and empty |
| Events.StartingPos | main.py:107-108 | the spawn point is the current level's table entry; any other level raises KeyError |
| Events.ChangeState | main.py:103-105 | afterwards the state is the argument and nothing else has changed |
| Events.ChangeStateIdempotent | main.py:103-105 | changing state twice is the same as once |
| Events.TogglePause | main.py:418-422 | P switches PAUSE to GAME_ON and every other state to PAUSE |
| Events.TogglePauseTwice | main.py:418-422 | two presses restore the state exactly when it was PAUSE or GAME_ON |
| World.Reset | main.py:56-65 | reset clears the view, the player, the inputs, the shake, particles, sparks and circles; the level, the timer, the edges and the enemy projectiles are kept |
| World.ResetIdempotent | main.py:56-65 | resetting twice is the same as once |
| World.LoadMap | main.py:69-84 | a new player at the level's spawn point (KeyError for unknown levels, a fault for the empty ones), then the edge fold as written: the old box is kept and every tile's top-left corner is inside the new one; nothing else changes |
| World.EmptyData | main.py:28-46 | the start-up data before the map load: no player, infinite edges, a fresh handler, a zero clock, view and shake, and every effect list empty |
| World.NewData | main.py:27-50 | start-up loads level 1 with the player at (150, −10); every tile's top-left corner is inside the box; the edges are finite exactly when the map has a tile |
| World.FireVolley | main.py:318-335 | the volley sets the shake to 8; it keeps the old projectiles and sparks and appends the volley column (14 projectiles at x = WIDTH + offset x, from offset y, 22 apart, velocity (−1.8, 0)) and its 42 sparks |
| World.LevelMechanics | main.py:309-363 | nothing happens outside GAME_ON; level 0 goes to level 1 (True) once x > 120; level 1 starts running once x > 240; the first running tick fires the volley; the timer counts every running tick; any other level reaches `self.dsta` and raises AttributeError |
| World.LevelMechanicsKeepsInvariant | main.py:309-363 | the level stays 0 or 1 and the timer only runs in a running level 1, so with a player the mechanics never fail |
| World.Countdown | main.py:367-368 | a positive shake drops by one, and a zero shake stays zero |
| World.CountdownClosedForm | main.py:367-368 | after n ticks a shake s has max(0, s − n) ticks left |
| World.Scroll | main.py:139-149 | the scroll step moves only the view, and the view never extends past the map's right or bottom edge |
| World.PlayerPhase | main.py:183-228 | torch particles and the player step only while the game is on |
| World.BeforeMechanics | main.py:126-297 | the first half of render: a missing player raises AttributeError; otherwise the frame is counted and the click flag copied, while the level, edges, inputs, shake and player presence are kept, every projectile moved one step, only an unknown particle type fails, and the view stays short of the map's right and bottom edges |
| World.Passes | main.py:234-297 | the four effect passes run in order: the particle list is the particle pass's result (unchanged outside GAME_ON), projectiles move, circles and sparks are updated and pruned, a click adding its spark just before the spark pass; the player, view and everything else are untouched; only an unknown particle type fails |
| World.Tick | main.py:126-368 | a tick counts the frame, copies the click flag, keeps the edges, the inputs and the game state, needs a player, and leaves the view short of the map's right and bottom edges |
| World.FiringTick | main.py:318-368 | the tick that fires the volley ends with shake 7 and timer 1; the old projectiles have moved one step and the 14 volley projectiles follow them, placed at the scrolled view |
| World.QuietTick | main.py:258-368 | any other tick adds no projectile and counts the shake down by one |
| World.TickKeepsInvariant | main.py:309-363 | a tick keeps the level invariant, so the `dsta` fault is unreachable; with a player a tick can only fail on an unknown particle type |
| World.TickAfterReset | main.py:56-65 | after a reset the next tick fails for want of a player |
| World.KeyPressed | main.py:404-422 | key 1 exits; A, D and W set inputs 0, 1 and 2, W also jumps (failing without a player); S sets shake 6; P toggles the pause |
| World.KeyReleased | main.py:424-430 | releasing A, D or W clears exactly its input |
| World.MouseButton | main.py:432-441 | buttons 1 and 3 set and clear the left and right click flags |
| World.HandleEvent | main.py:398-441 | input 3 is never written; only P moves the game state; the level, the map, the particles, circles, sparks and projectiles are untouched; quit and key 1 exit |
| World.HandleEventsStopsAtQuit | main.py:398-441 | `sys.exit` ends the batch: the events after the first quit or key 1 are never handled, so the batch gives what its prefix up to that event gives, and an error-free batch ends exited |
| World.HandleEvents | main.py:398-441 | a batch of events is handled in order (the stop at the first quit is `World.HandleEventsStopsAtQuit`): the process has exited exactly when it already had or some event quits; the clock and input 3 are untouched |
| World.RunFrame | main.py:443-447 | one pass of the game loop: events, then one render unless the events exited; the edges are kept and the frame counter grows by one exactly when it renders |
| World.EventsKeepLevel | main.py:398-441 | a whole batch of events leaves the level, its timer and the projectiles alone |
| World.PressRelease | main.py:408-430 | pressing and releasing A or D in one batch leaves its input clear |
| World.RunFrames | main.py:443-447 | the game loop never changes the edges |
| World.NoVolleyOnceTimerRuns | main.py:316-337 | once the level timer runs no frame adds a projectile |
| World.VolleyFiresAtMostOnce | main.py:316-337 | over any run of frames at most 14 projectiles are added: the volley fires once |

## Left out

- Drawing of every kind is not modelled: blits, glows, text, `Particle.draw`, `Player.render`, the spark polygons and the screenshake display offset. It computes pixels, not state. `Particle.draw` also clamps the frame. That clamp only acts when render is on and the frame exceeds the strip length, which `Particles.Update` proves cannot happen together.
- Image loading, `os.listdir`, `pygame.event.get`, `pg.quit`, the clock, FPS and `dt` are left out. They are I/O and timing. `dt` is not read by any modelled code, and exiting is an `exited` flag.
- `Entity.movement`, `Entity.update`, `Entity.center` and `Tile_Map` are not part of this model. The movement result (new position and collision flags), the click spark's centre and the tile positions are inputs.
- Random draws are parameters. Their ranges are stated as requirements: `randint(20, 30)`, the volley's `randrange`s and the click spark's `randrange`s. So are the torch particles spawned by the tile loop, which are passed in as a list already built. Trigonometry (`cos`, `sin`, `atan2`) is uninterpreted, and the volley's jittered angle is an arbitrary real.
- Python floats are exact reals, so no rounding is modelled.
- An empty tile map leaves the edges infinite, and the camera then moves to IEEE infinities. `World.Tick` requires finite edges instead. The map load runs the fold as written, and a map with at least one tile always gives finite edges (`MapEdges.AsWrittenFoldIsFinite`).
- `Data.enemies` and `Data.effects` are left out: nothing else in the code uses them. Reset empties `enemies` and creates or empties `effects`, which `Data.__init__` never creates.
- `Data.circle_particles` is left out: only `Data.__init__` writes it (an empty list), and nothing reads it. Reset does not touch it.
- `mouse_pos` is left out: render overwrites it from the mouse every tick, and its one reader, the click spark's angle, receives that angle as an input.
- The two empty spawn points (levels 2 and 3) are reported as a fault when the map loads. What the entity base class does with an empty position is not visible.
- `World.LoadMap` and `World.NewData` give the new player the animation state `Idle`. That first state comes from the entity base class, which is not part of this model, so it is assumed.
- `int()` in `FileSort` strips only the ASCII characters Python treats as whitespace: space, `\t`, `\n`, `\v`, `\f`, `\r` and the separators `\x1c` to `\x1f`. It reads only the digits 0 to 9. Python also accepts non-ASCII whitespace such as U+00A0 and U+2028, and other Unicode decimal digits.
- Nothing in the code ever adds a circle, so `Effects.UpdateCircles` only models the pass itself.
- Dash or dodge charges, lives, hurt handling, hit detection, spawn-rate tables and the wipe transition are not modelled. The code does not implement them.

## Findings

| source | as written | input that shows it | evidently intended | confidence | as-written member | corrected member |
|---|---|---|---|---|---|---|
| main.py:79-84 | the right and bottom edges move only when a tile's left (top) corner lies beyond them, and then to its far side, so a tile in the column (row) just past the current edge is missed and the box depends on tile order | tiles (0,0) then (1,0), cell 16: right edge 16 although the second tile reaches 32 (the other order gives 32) | compare the tile's far side, `x + CELL_SIZE > edges[1]`, so that every tile lies inside the box whatever the order | not executed | MapEdges.AsWrittenMissesTheLastColumn | MapEdges.FoldEdgesCoversEveryTile |

`World.LoadMap` and `World.NewData` run the fold as written, so the model's start-up state is the program's. The tick and the camera rely only on the edges being finite. Both folds give finite edges for any non-empty map (`MapEdges.AsWrittenFoldIsFinite`, `MapEdges.InitialFoldIsFinite`). The corrected fold (`MapEdges.Step`, `MapEdges.FoldEdges`) is the intended behaviour, and the covering property is proved about it.

=== FILE: common.dfy ===
/** Shared value types: 2-D vectors, colours, and the failure-compatible
    Option/Result used for the Python exceptions the model keeps. */
module Common {

  /** A pair of coordinates; the source keeps these as two-element lists. */
  datatype Vec = Vec(x: real, y: real)

  const ZERO: Vec := Vec(0.0, 0.0)

  function Add(a: Vec, b: Vec): Vec
  {
    Vec(a.x + b.x, a.y + b.y)
  }

  /** An RGB triple as pygame takes it. */
  datatype Rgb = Rgb(r: int, g: int, b: int)

  datatype Option<+T> = None | Some(value: T)

  /** The exceptions the modelled code can raise.  Each one ends the game loop. */
  datatype Fault =
    | UnknownParticleType(kind: string)     // KeyError on the particle image table
    | UnknownLevel(level: int)              // KeyError on the starting-position table
    | EmptyStartingPosition(level: int)     // a level whose starting position is []
    | NoPlayer                              // attribute access on a player that is None
    | MissingAttribute(name: string)        // AttributeError
    | NotAnInteger(text: string)            // ValueError raised by int()

  datatype Result<+T> = Ok(value: T) | Err(fault: Fault) {
    predicate IsFailure() {
      Err?
    }

    function PropagateFailure<U>(): Result<U>
      requires Err?
    {
      Err(fault)
    }

    function Extract(): T
      requires Ok?
    {
      value
    }
  }
}

=== FILE: effects.dfy ===
/** The list-shaped effects main.py updates every tick, whatever the game
    state: sparks, circles and enemy projectiles, and the level-1 volley that
    creates projectiles and sparks together.

    Trigonometry stays uninterpreted: the spark update receives cos and sin
    as functions. */
module Effects {
  import opened Common
  import opened Prune

  // ---------------------------------------------------------------- sparks

  /** [pos, angle, speed, width, decay, speed_decay, length, length_decay, color] */
  datatype Spark = Spark(
    pos: Vec, angle: real, speed: real,
    width: real, decay: real,
    speedDecay: real,
    length: real, lengthDecay: real,
    color: Rgb)

  /** One tick of a spark: move along its angle at the current speed, then thin,
      slow and shorten it. */
  function AdvanceSpark(cos: real -> real, sin: real -> real, s: Spark): (r: Spark)
    ensures r.pos.x - s.pos.x == cos(s.angle) * s.speed && r.pos.y - s.pos.y == sin(s.angle) * s.speed
    ensures r.width == s.width - s.decay && r.speed == s.speed * s.speedDecay && r.length == s.length * s.lengthDecay
    ensures r == s.(pos := r.pos, width := r.width, speed := r.speed, length := r.length)
  {
    s.(pos := Vec(s.pos.x + cos(s.angle) * s.speed, s.pos.y + sin(s.angle) * s.speed),
       width := s.width - s.decay,
       speed := s.speed * s.speedDecay,
       length := s.length * s.lengthDecay)
  }

  function SparkStep(cos: real -> real, sin: real -> real): Spark -> Spark
  {
    s => AdvanceSpark(cos, sin, s)
  }

  predicate SparkAlive(s: Spark)
  {
    s.width > 0.0
  }

  /** The spark pass of the game loop: advance every spark, drop those whose width
      fell to zero or below. */
  function UpdateSparks(cos: real -> real, sin: real -> real, ss: seq<Spark>): (r: seq<Spark>)
    ensures |r| <= |ss|
    ensures forall k :: 0 <= k < |r| ==> r[k].width > 0.0
    ensures forall i :: 0 <= i < |ss| ==>
              (ss[i].width - ss[i].decay > 0.0 <==> AdvanceSpark(cos, sin, ss[i]) in r)
  {
    PrunedKeepsExactlyTheLive(ss, SparkStep(cos, sin), SparkAlive);
    Pruned(ss, SparkStep(cos, sin), SparkAlive)
  }

  function Pow(b: real, n: nat): real
  {
    if n == 0 then 1.0 else b * Pow(b, n - 1)
  }

  /** A spark advanced n times, pruning aside. */
  function SparkAfter(cos: real -> real, sin: real -> real, s: Spark, n: nat): Spark
  {
    Iterate(s, SparkStep(cos, sin), n)
  }

  /** Closed form of the width: after n ticks it has dropped by exactly n decays. */
  lemma {:induction false} SparkAfterWidth(cos: real -> real, sin: real -> real, s: Spark, n: nat)
    ensures SparkAfter(cos, sin, s, n).width == s.width - n as real * s.decay
    ensures SparkAfter(cos, sin, s, n).decay == s.decay
    decreases n
  {
    if n > 0 {
      SparkAfterWidth(cos, sin, AdvanceSpark(cos, sin, s), n - 1);
    }
  }

  /** Closed form of the speed: scaled by the n-th power of its factor. */
  lemma {:induction false} SparkAfterSpeed(cos: real -> real, sin: real -> real, s: Spark, n: nat)
    ensures SparkAfter(cos, sin, s, n).speed == s.speed * Pow(s.speedDecay, n)
    ensures SparkAfter(cos, sin, s, n).speedDecay == s.speedDecay
    decreases n
  {
    if n > 0 {
      var a := AdvanceSpark(cos, sin, s);
      SparkAfterSpeed(cos, sin, a, n - 1);
      MulAssoc(s.speed, s.speedDecay, Pow(s.speedDecay, n - 1));
    }
  }

  /** Closed form of the length: scaled by the n-th power of its factor. */
  lemma {:induction false} SparkAfterLength(cos: real -> real, sin: real -> real, s: Spark, n: nat)
    ensures SparkAfter(cos, sin, s, n).length == s.length * Pow(s.lengthDecay, n)
    ensures SparkAfter(cos, sin, s, n).lengthDecay == s.lengthDecay
    decreases n
  {
    if n > 0 {
      var a := AdvanceSpark(cos, sin, s);
      SparkAfterLength(cos, sin, a, n - 1);
      MulAssoc(s.length, s.lengthDecay, Pow(s.lengthDecay, n - 1));
    }
  }

  lemma MulAssoc(a: real, b: real, c: real)
    ensures (a * b) * c == a * (b * c)
  {
  }

  /** The angle and the colour never change. */
  lemma {:induction false} SparkAfterKeepsHeading(cos: real -> real, sin: real -> real, s: Spark, n: nat)
    ensures SparkAfter(cos, sin, s, n).angle == s.angle
    ensures SparkAfter(cos, sin, s, n).color == s.color
    decreases n
  {
    if n > 0 {
      SparkAfterKeepsHeading(cos, sin, AdvanceSpark(cos, sin, s), n - 1);
    }
  }

  /** n ticks of the spark pass. */
  function RunSparks(cos: real -> real, sin: real -> real, ss: seq<Spark>, n: nat): seq<Spark>
  {
    RunPruned(ss, SparkStep(cos, sin), SparkAlive, n)
  }

  /** A lone spark with a non-negative decay is still in the list after n ticks exactly
      while its n-times advanced self is alive; from then on the list is empty. */
  lemma SparkLifetime(cos: real -> real, sin: real -> real, s: Spark, n: nat)
    requires s.decay >= 0.0
    ensures RunSparks(cos, sin, [s], n)
            == (if n == 0 || SparkAlive(SparkAfter(cos, sin, s, n)) then [SparkAfter(cos, sin, s, n)] else [])
  {
    var f := SparkStep(cos, sin);
    forall k: nat | !SparkAlive(Iterate(s, f, k))
      ensures !SparkAlive(f(Iterate(s, f, k)))
    {
      SparkAfterWidth(cos, sin, s, k);
    }
    LoneLifetime(s, f, SparkAlive, n);
  }

  /** A spark of width 4 thinning by 0.12 a tick lives through 33 ticks and is removed on the 34th. */
  lemma SparkOfWidthFourLasts34Ticks(cos: real -> real, sin: real -> real, s: Spark)
    requires s.width == 4.0 && s.decay == 0.12
    ensures |RunSparks(cos, sin, [s], 33)| == 1
    ensures RunSparks(cos, sin, [s], 34) == []
  {
    SparkLifetime(cos, sin, s, 33);
    SparkLifetime(cos, sin, s, 34);
    SparkAfterWidth(cos, sin, s, 33);
    SparkAfterWidth(cos, sin, s, 34);
  }

  // ---------------------------------------------------------------- circles

  /** [pos, speed, radius, width, decay, speed_decay, color]: the width is multiplied
      by `decay` and `speed_decay` is taken off the radius. */
  datatype Circle = Circle(
    pos: Vec, speed: real, radius: real, width: real,
    decay: real, speedDecay: real, color: Rgb)

  function AdvanceCircle(c: Circle): (r: Circle)
    ensures r.radius == c.radius + c.speed - c.speedDecay && r.width == c.width * c.decay
    ensures r == c.(radius := r.radius, width := r.width)
  {
    c.(radius := c.radius + c.speed - c.speedDecay, width := c.width * c.decay)
  }

  predicate CircleAlive(c: Circle)
  {
    c.width >= 1.0
  }

  /** The circle pass: grow the ring, thin its outline, drop it once thinner than 1. */
  function UpdateCircles(cs: seq<Circle>): (r: seq<Circle>)
    ensures |r| <= |cs|
    ensures forall k :: 0 <= k < |r| ==> r[k].width >= 1.0
    ensures forall i :: 0 <= i < |cs| ==>
              (cs[i].width * cs[i].decay >= 1.0 <==> AdvanceCircle(cs[i]) in r)
  {
    PrunedKeepsExactlyTheLive(cs, AdvanceCircle, CircleAlive);
    Pruned(cs, AdvanceCircle, CircleAlive)
  }

  // ---------------------------------------------------------------- enemy projectiles

  /** [pos, vel, frame, const] */
  datatype Projectile = Projectile(pos: Vec, vel: Vec, frame: int, seed: int)

  /** The projectile pass: every projectile moves by its velocity; none is removed. */
  function MoveProjectiles(ps: seq<Projectile>): (r: seq<Projectile>)
    ensures |r| == |ps|
    ensures forall i :: 0 <= i < |ps| ==> r[i].vel == ps[i].vel && r[i].frame == ps[i].frame
                                          && r[i].seed == ps[i].seed
    ensures forall i :: 0 <= i < |ps| ==> r[i].pos.x - ps[i].pos.x == ps[i].vel.x
                                          && r[i].pos.y - ps[i].pos.y == ps[i].vel.y
  {
    seq(|ps|, i requires 0 <= i < |ps| => ps[i].(pos := Add(ps[i].pos, ps[i].vel)))
  }

  function RunProjectiles(ps: seq<Projectile>, n: nat): seq<Projectile>
    decreases n
  {
    if n == 0 then ps else RunProjectiles(MoveProjectiles(ps), n - 1)
  }

  /** After n ticks every projectile is still there, n velocity steps further on. */
  lemma {:induction false} ProjectilesAfter(ps: seq<Projectile>, n: nat)
    ensures |RunProjectiles(ps, n)| == |ps|
    ensures forall i :: 0 <= i < |ps| ==>
              RunProjectiles(ps, n)[i] == ps[i].(pos := Vec(ps[i].pos.x + n as real * ps[i].vel.x,
                                                            ps[i].pos.y + n as real * ps[i].vel.y))
    decreases n
  {
    if n > 0 {
      ProjectilesAfter(MoveProjectiles(ps), n - 1);
    }
  }

  // ---------------------------------------------------------------- the level-1 volley

  const VOLLEY_SIZE: nat := 14
  const VOLLEY_PITCH: int := 22
  const VOLLEY_VELOCITY: Vec := Vec(-1.8, 0.0)
  const SPARKS_PER_LANE: nat := 3
  const VOLLEY_SPARK_DECAY: real := 0.12
  const VOLLEY_SPARK_SPEED_DECAY: real := 0.9
  const VOLLEY_SPARK_LENGTH_DECAY: real := 0.97
  const SPARK_COLOR: Rgb := Rgb(20, 6, 6)

  /** The random draws behind one spark: angle, randrange(8, 11), randrange(2, 4), randrange(10, 12). */
  datatype SparkDraw = SparkDraw(angle: real, speed: int, width: int, length: int)

  predicate ValidSparkDraw(d: SparkDraw)
  {
    8 <= d.speed <= 10 && 2 <= d.width <= 3 && 10 <= d.length <= 11
  }

  /** The draws behind one lane: randrange(1, 6) for the projectile and its three sparks. */
  datatype LaneDraw = LaneDraw(seed: int, sparks: seq<SparkDraw>)

  predicate ValidLaneDraw(d: LaneDraw)
  {
    1 <= d.seed <= 5 && |d.sparks| == SPARKS_PER_LANE
    && forall j :: 0 <= j < |d.sparks| ==> ValidSparkDraw(d.sparks[j])
  }

  predicate ValidVolleyDraws(ds: seq<LaneDraw>)
  {
    |ds| == VOLLEY_SIZE && forall i :: 0 <= i < |ds| ==> ValidLaneDraw(ds[i])
  }

  /** Where lane i starts: just past the right edge of the view, i pitches down from its top. */
  function LaneOrigin(screenWidth: int, offset: Vec, i: int): Vec
  {
    Vec(screenWidth as real + offset.x, (i * VOLLEY_PITCH) as real + offset.y)
  }

  function VolleyProjectiles(screenWidth: int, offset: Vec, ds: seq<LaneDraw>): (r: seq<Projectile>)
    ensures |r| == |ds|
    // one column at the right edge of the view, from its top down, 22 apart
    ensures forall i :: 0 <= i < |r| ==> r[i].pos.x == screenWidth as real + offset.x
    ensures |r| > 0 ==> r[0].pos.y == offset.y
    ensures forall i :: 0 <= i < |r| - 1 ==> r[i + 1].pos.y - r[i].pos.y == VOLLEY_PITCH as real
    // all flying left at the same speed, animation at its first frame
    ensures forall i :: 0 <= i < |r| ==> r[i].vel == VOLLEY_VELOCITY && r[i].frame == 0
                                         && r[i].seed == ds[i].seed
  {
    seq(|ds|, i requires 0 <= i < |ds| => Projectile(LaneOrigin(screenWidth, offset, i), VOLLEY_VELOCITY, 0, ds[i].seed))
  }

  function VolleySpark(origin: Vec, d: SparkDraw): Spark
  {
    Spark(origin, d.angle, d.speed as real, d.width as real, VOLLEY_SPARK_DECAY,
          VOLLEY_SPARK_SPEED_DECAY, d.length as real, VOLLEY_SPARK_LENGTH_DECAY, SPARK_COLOR)
  }

  /** The three sparks of one lane, in draw order. */
  function LaneSparks(origin: Vec, d: LaneDraw): (r: seq<Spark>)
    requires ValidLaneDraw(d)
    ensures |r| == SPARKS_PER_LANE
    ensures forall j :: 0 <= j < SPARKS_PER_LANE ==> r[j] == VolleySpark(origin, d.sparks[j])
  {
    [VolleySpark(origin, d.sparks[0]), VolleySpark(origin, d.sparks[1]), VolleySpark(origin, d.sparks[2])]
  }

  /** The sparks of the volley, in the order the nested loop appends them: lane by
      lane, three per lane. */
  function VolleySparks(screenWidth: int, offset: Vec, ds: seq<LaneDraw>): (r: seq<Spark>)
    requires forall i :: 0 <= i < |ds| ==> ValidLaneDraw(ds[i])
    ensures |r| == 3 * |ds|
    ensures forall i :: 0 <= i < |ds| ==>
              r[3 * i .. 3 * i + 3] == LaneSparks(LaneOrigin(screenWidth, offset, i), ds[i])
    ensures forall k :: 0 <= k < |r| ==> 2.0 <= r[k].width <= 3.0 && 8.0 <= r[k].speed <= 10.0
                                         && 10.0 <= r[k].length <= 11.0
    ensures forall k :: 0 <= k < |r| ==> r[k].decay == VOLLEY_SPARK_DECAY
                                         && r[k].speedDecay == VOLLEY_SPARK_SPEED_DECAY
                                         && r[k].lengthDecay == VOLLEY_SPARK_LENGTH_DECAY
    decreases |ds|
  {
    if ds == [] then []
    else
      var n := |ds| - 1;
      var front := VolleySparks(screenWidth, offset, ds[..n]);
      var last := LaneSparks(LaneOrigin(screenWidth, offset, n), ds[n]);
      assert forall i :: 0 <= i < n ==> ds[..n][i] == ds[i];
      assert forall j :: 0 <= j < SPARKS_PER_LANE ==> ValidSparkDraw(ds[n].sparks[j]);
      front + last
  }

  // ---------------------------------------------------------------- the click spark

  /** The draws behind the spark a left click fires from the player: the player's
      centre and the aim angle (the base class and atan2 supply them), then
      randrange(8, 11), randrange(3, 5) and randrange(10, 12). */
  datatype ClickDraw = ClickDraw(center: Vec, angle: real, speed: int, width: int, length: int)

  predicate ValidClickDraw(d: ClickDraw)
  {
    8 <= d.speed <= 10 && 3 <= d.width <= 4 && 10 <= d.length <= 11
  }

  function ClickSpark(d: ClickDraw): (s: Spark)
    requires ValidClickDraw(d)
    ensures SparkAlive(s) && s.decay == 0.2 && s.pos == d.center && s.angle == d.angle
  {
    Spark(d.center, d.angle, d.speed as real, d.width as real, 0.2, 0.9, d.length as real, 0.97, SPARK_COLOR)
  }
}

=== FILE: entities.dfy ===
/** The player body of data/entities.py: one physics step per tick, jumping,
    and the squash-and-stretch scale controller.

    Tile collision (Entity.movement and the tile map) is not part of this
    model: the step receives what it reports, the moved position and the four
    collision flags, as a `Movement` value. */
module Entities {

  const MAX_JUMPS: nat := 2
  const SPEED: int := 4
  const TERMINAL_VELOCITY: int := 14
  const JUMP_VELOCITY: int := -10
  const FIRE_RATE: int := 4

  const SCALE_MIN: real := 0.3
  const SCALE_MAX: real := 1.5
  /** Pull of the scale back toward 1, applied to the squish velocity. */
  const SCALE_PULL: real := 0.026
  /** Drag applied to the squish velocity. */
  const SQUISH_DRAG: real := 0.016
  /** Half-width of the band around rest inside which the controller snaps. */
  const REST_BAND: real := 0.06
  const LANDING_SQUISH: real := -0.14
  const HARD_LANDING_SPEED: int := 6

  /** Animation state names the shown code uses ('jump' belongs to the base class). */
  datatype Action = Idle | Run | Jump | Hurt

  /** The shared input vector: A, D, W and a fourth slot nothing writes. */
  datatype Inputs = Inputs(left: bool, right: bool, up: bool, spare: bool)

  const NO_INPUT: Inputs := Inputs(false, false, false, false)

  datatype Collisions = Collisions(up: bool, down: bool, left: bool, right: bool)

  /** What Entity.movement reports: the position after moving and which sides were blocked. */
  datatype Movement = Movement(x: real, y: real, hits: Collisions)

  datatype Player = Player(
    x: real, y: real,
    vx: int, vy: int,
    airTime: nat,
    jumps: nat,
    flip: bool,
    action: Action,
    scaleX: real, scaleY: real,
    squish: real,
    fireTimer: int, fireRate: int)

  /** Player.__init__: the base class supplies position and the first animation state. */
  function NewPlayer(x: real, y: real, action: Action): (p: Player)
    ensures Valid(p)
    ensures p.jumps == MAX_JUMPS && p.airTime == 0
    ensures p.scaleX == 1.0 && p.scaleY == 1.0 && p.squish == 0.0
    ensures p.vx == 0 && p.vy == 0 && !p.flip
    ensures p.fireTimer == p.fireRate == FIRE_RATE
  {
    Player(x, y, 0, 0, 0, MAX_JUMPS, false, action, 1.0, 1.0, 0.0, FIRE_RATE, FIRE_RATE)
  }

  /** The invariant every reachable player keeps. */
  ghost predicate Valid(p: Player)
  {
    && p.jumps <= MAX_JUMPS
    && p.vy <= TERMINAL_VELOCITY
    && p.vx in {-SPEED, 0, SPEED}
    && SCALE_MIN <= p.scaleY <= SCALE_MAX
    && 2.0 - SCALE_MAX <= p.scaleX <= 2.0 - SCALE_MIN
  }

  function BoolToInt(b: bool): int
  {
    if b then 1 else 0
  }

  /** Horizontal velocity: (right - left) * speed, Python's bool subtraction. */
  function HorizontalVelocity(i: Inputs): (vx: int)
    ensures vx in {-SPEED, 0, SPEED}
    ensures vx == SPEED <==> i.right && !i.left
    ensures vx == -SPEED <==> i.left && !i.right
    ensures vx == 0 <==> i.left == i.right
  {
    (BoolToInt(i.right) - BoolToInt(i.left)) * SPEED
  }

  /** One tick of gravity: min(14, vy + 1). */
  function Gravity(vy: int): (r: int)
    ensures r <= TERMINAL_VELOCITY
    ensures vy < TERMINAL_VELOCITY ==> r == vy + 1
    ensures vy >= TERMINAL_VELOCITY ==> r == TERMINAL_VELOCITY
  {
    if TERMINAL_VELOCITY < vy + 1 then TERMINAL_VELOCITY else vy + 1
  }

  /** The two change_state calls at the top of Player.update. */
  function NextAction(a: Action, i: Inputs, airTime: nat): (r: Action)
    ensures i.left || i.right ==> r == Run
    ensures !i.left && !i.right && !i.up && airTime == 0 && a != Hurt ==> r == Idle
    ensures !i.left && !i.right && (i.up || airTime != 0 || a == Hurt) ==> r == a
  {
    var a1 := if i.left || i.right then Run else a;
    if !i.left && !i.right && !i.up && airTime == 0 && a1 != Hurt then Idle else a1
  }

  /** Facing: left wins over right; neither leaves it as it was. */
  function NextFlip(flip: bool, i: Inputs): (r: bool)
    ensures i.left ==> r
    ensures !i.left && i.right ==> !r
    ensures !i.left && !i.right ==> r == flip
  {
    if i.left then true else if i.right then false else flip
  }

  function ClampScale(s: real): (r: real)
    ensures SCALE_MIN <= r <= SCALE_MAX
    ensures SCALE_MIN <= s <= SCALE_MAX ==> r == s
    ensures s < SCALE_MIN ==> r == SCALE_MIN
    ensures s > SCALE_MAX ==> r == SCALE_MAX
  {
    var lo := if s < SCALE_MAX then s else SCALE_MAX;
    if SCALE_MIN < lo then lo else SCALE_MIN
  }

  function Abs(x: real): real
  {
    if x < 0.0 then -x else x
  }

  /** Near rest: both the squish velocity and the scale's distance from 1 under the band. */
  predicate NearRest(v: real, s: real)
  {
    Abs(v) < REST_BAND && Abs(s - 1.0) < REST_BAND
  }

  /** The pull-toward-rest steps of squash_effect, run in sequence as written:
      the scale pull, then drag on a positive velocity, then drag on a
      negative one (which also re-adds the drag when the first step crossed zero). */
  function PullToRest(v: real, s: real): (r: real)
    ensures s > 1.0 ==> r < v
    ensures s < 1.0 ==> r > v
    ensures s == 1.0 && v >= 0.0 ==> 0.0 <= r <= v
    ensures -(SCALE_PULL + SQUISH_DRAG) <= r - v <= SCALE_PULL + SQUISH_DRAG
  {
    var v1 := if s > 1.0 then v - SCALE_PULL else if s < 1.0 then v + SCALE_PULL else v;
    var v2 := if v1 > 0.0 then v1 - SQUISH_DRAG else v1;
    if v2 < 0.0 then v2 + SQUISH_DRAG else v2
  }

  /** A landing counts as hard when the post-gravity vertical velocity exceeds 6. */
  predicate HardLanding(p: Player, hits: Collisions)
  {
    hits.down && p.vy > HARD_LANDING_SPEED
  }

  /** Player.squash_effect, called with the vertical velocity already past gravity. */
  function SquashEffect(p: Player, hits: Collisions): (r: Player)
    ensures SCALE_MIN <= r.scaleY <= SCALE_MAX
    ensures r.scaleX == 2.0 - ClampScale(p.scaleY + p.squish)
    ensures HardLanding(p, hits) ==> r.squish == LANDING_SQUISH
    // away from a hard landing the controller never stays inside the rest band while moving
    ensures !HardLanding(p, hits) ==> r.squish == 0.0 || !NearRest(r.squish, r.scaleY)
    // the snap: a moving controller that the pull brought near rest lands exactly on rest
    ensures var s := ClampScale(p.scaleY + p.squish);
            var v := PullToRest(p.squish, s);
            (v != 0.0 && NearRest(v, s) ==> r.scaleY == 1.0 && (HardLanding(p, hits) || r.squish == 0.0))
            && (!(v != 0.0 && NearRest(v, s)) ==> r.scaleY == s && (HardLanding(p, hits) || r.squish == v))
    ensures r == p.(scaleX := r.scaleX, scaleY := r.scaleY, squish := r.squish)
  {
    var s := ClampScale(p.scaleY + p.squish);
    var sx := 2.0 - s;
    var v := PullToRest(p.squish, s);
    var snap := v != 0.0 && NearRest(v, s);
    var s' := if snap then 1.0 else s;
    var v' := if snap then 0.0 else v;
    var v'' := if HardLanding(p, hits) then LANDING_SQUISH else v';
    p.(scaleX := sx, scaleY := s', squish := v'')
  }

  /** Player.update: one physics tick, given what the movement code reported.
      `leftClicked` is the mouse flag copied into the shared data each tick. */
  function Update(p: Player, i: Inputs, m: Movement, leftClicked: bool): (r: Player)
    ensures r.vx in {-SPEED, 0, SPEED} && r.vx == HorizontalVelocity(i)
    ensures r.vy <= TERMINAL_VELOCITY
    ensures m.hits.down ==> r.vy == 0 && r.airTime == 0 && r.jumps == MAX_JUMPS
    ensures !m.hits.down ==> r.vy == Gravity(p.vy) && r.airTime == p.airTime + 1 && r.jumps == p.jumps
    ensures m.hits.down && p.vy >= HARD_LANDING_SPEED ==> r.squish == LANDING_SQUISH
    ensures r.x == m.x && r.y == m.y
    ensures r.action == NextAction(p.action, i, p.airTime)
    ensures r.flip == NextFlip(p.flip, i)
    ensures SCALE_MIN <= r.scaleY <= SCALE_MAX
    ensures !leftClicked ==> r.fireTimer == r.fireRate
    ensures leftClicked ==> r.fireTimer == p.fireTimer
    ensures r.fireRate == p.fireRate
    // the scale controller is squash_effect run on the moved, post-gravity body
    ensures var q := SquashEffect(p.(vx := HorizontalVelocity(i), vy := Gravity(p.vy), x := m.x, y := m.y), m.hits);
            r.scaleX == q.scaleX && r.scaleY == q.scaleY && r.squish == q.squish
    ensures Valid(p) ==> Valid(r)
  {
    var p1 := p.(action := NextAction(p.action, i, p.airTime), flip := NextFlip(p.flip, i));
    var p2 := p1.(vx := HorizontalVelocity(i), vy := Gravity(p1.vy));
    var p3 := p2.(x := m.x, y := m.y);
    var p4 := SquashEffect(p3, m.hits);
    var p5 := if m.hits.down then p4.(vy := 0, airTime := 0, jumps := MAX_JUMPS)
              else p4.(airTime := p4.airTime + 1);
    if leftClicked then p5 else p5.(fireTimer := p5.fireRate)
  }

  /** Player.jump: spend a charge if there is one. */
  function DoJump(p: Player): (r: Player)
    ensures p.jumps > 0 ==> r == p.(vy := JUMP_VELOCITY, jumps := p.jumps - 1)
    ensures p.jumps == 0 ==> r == p
  {
    if p.jumps > 0 then p.(vy := JUMP_VELOCITY, jumps := p.jumps - 1) else p
  }

  lemma UpdatePreservesValid(p: Player, i: Inputs, m: Movement, leftClicked: bool)
    requires Valid(p)
    ensures Valid(Update(p, i, m, leftClicked))
  {
  }

  lemma JumpPreservesValid(p: Player)
    requires Valid(p)
    ensures Valid(DoJump(p))
  {
  }

  /** From a controller at exact rest, a tick without a hard landing changes nothing. */
  lemma RestIsFixedPoint(p: Player, hits: Collisions)
    requires p.scaleY == 1.0 && p.squish == 0.0
    requires !HardLanding(p, hits)
    ensures SquashEffect(p, hits) == p.(scaleX := 1.0)
  {
  }

  /** A player on the ground can jump exactly twice; the third press does nothing. */
  lemma {:induction false} TwoJumpsThenNone(p: Player)
    requires p.jumps == MAX_JUMPS
    ensures DoJump(p).jumps == 1
    ensures DoJump(DoJump(p)).jumps == 0
    ensures DoJump(DoJump(DoJump(p))) == DoJump(DoJump(p))
    ensures DoJump(DoJump(p)).vy == JUMP_VELOCITY
  {
  }

  /** What the game loop can do to the player. W jumps in every game state
      (main.py:412-414), while the physics step runs only while the game is on
      (main.py:228), so presses and steps interleave freely: several jumps may
      come between two steps, or none. */
  datatype PlayerOp =
    | JumpPress
    | PhysicsStep(inputs: Inputs, moved: Movement, leftClicked: bool)

  function ApplyOp(p: Player, op: PlayerOp): Player
  {
    match op
    case JumpPress => DoJump(p)
    case PhysicsStep(i, m, c) => Update(p, i, m, c)
  }

  function RunOps(p: Player, ops: seq<PlayerOp>): Player
    decreases |ops|
  {
    if ops == [] then p else RunOps(ApplyOp(p, ops[0]), ops[1..])
  }

  /** The player invariant (jump charges, terminal velocity, scale bounds) holds
      after any interleaving of jumps and steps. */
  lemma {:induction false} RunOpsValid(p: Player, ops: seq<PlayerOp>)
    requires Valid(p)
    ensures Valid(RunOps(p, ops))
    decreases |ops|
  {
    if ops != [] {
      match ops[0] {
        case JumpPress => JumpPreservesValid(p);
        case PhysicsStep(i, m, c) => UpdatePreservesValid(p, i, m, c);
      }
      RunOpsValid(ApplyOp(p, ops[0]), ops[1..]);
    }
  }

  /** However many times W is pressed between two steps, at most two jumps fire:
      a run of presses leaves max(0, jumps - n) charges. */
  lemma {:induction false} PressesSpendAtMostTheCharges(p: Player, n: nat)
    ensures RunOps(p, seq(n, _ => JumpPress)).jumps == if n <= p.jumps then p.jumps - n else 0
    ensures n > 0 && p.jumps > 0 ==> RunOps(p, seq(n, _ => JumpPress)).vy == JUMP_VELOCITY
    ensures p.jumps == 0 ==> RunOps(p, seq(n, _ => JumpPress)) == p
    decreases n
  {
    if n > 0 {
      var presses := seq(n, _ => JumpPress);
      assert presses[1..] == seq(n - 1, _ => JumpPress);
      PressesSpendAtMostTheCharges(DoJump(p), n - 1);
    }
  }
}

=== FILE: events.dfy ===
/** Event_Handler of main.py: the game state, the current level and its timer,
    and the per-level tables. */
module Events {
  import opened Common

  datatype GameState = StartMenu | Pause | GameOn | ForcedPause | Transition

  datatype Handler = Handler(level: int, levelTimer: int, text: string, state: GameState, levelRun: bool)

  /** Timer length of each level (only shown on screen). */
  const LEVEL_TIMES: seq<int> := [200, 400, 500, 600]
  /** The x the player must pass to start each level's mechanics. */
  const LEVEL_START_POS: seq<int> := [120, 240, 200, 240]

  /** Event_Handler.__init__: level 1, timer 0, game on, level not yet running. */
  function NewHandler(): (h: Handler)
    ensures h.level == 1 && h.levelTimer == 0 && h.state == GameOn && !h.levelRun && h.text == ""
  {
    Handler(1, 0, "", GameOn, false)
  }

  /** The starting_positions table: levels 0 and 1 have a spawn point, levels 2 and 3
      are present but empty. */
  function StartingPositions(): (t: map<int, seq<int>>)
    ensures t.Keys == {0, 1, 2, 3}
    ensures |t[0]| == 2 && |t[1]| == 2 && t[2] == [] && t[3] == []
  {
    map[0 := [0, -10], 1 := [150, -10], 2 := [], 3 := []]
  }

  /** Event_Handler.starting_pos: the table entry of the current level, a KeyError for
      any other level. */
  function StartingPos(h: Handler): (r: Result<seq<int>>)
    ensures r.Ok? <==> 0 <= h.level <= 3
    ensures r.Err? ==> r.fault == UnknownLevel(h.level)
    ensures r.Ok? ==> (|r.value| == 2 <==> h.level in {0, 1})
    ensures h.level == 0 ==> r == Ok([0, -10])
    ensures h.level == 1 ==> r == Ok([150, -10])
  {
    var t := StartingPositions();
    if h.level in t then Ok(t[h.level]) else Err(UnknownLevel(h.level))
  }

  /** Event_Handler.change_state: assigning only when different is the same as assigning. */
  function ChangeState(h: Handler, s: GameState): (r: Handler)
    ensures r.state == s
    ensures r.(state := h.state) == h
  {
    if h.state != s then h.(state := s) else h
  }

  lemma ChangeStateIdempotent(h: Handler, s: GameState)
    ensures ChangeState(ChangeState(h, s), s) == ChangeState(h, s)
    ensures h.state == s ==> ChangeState(h, s) == h
  {
  }

  /** The P key: resume from Pause, pause from any other state. */
  function TogglePause(h: Handler): (r: Handler)
    ensures h.state == Pause ==> r.state == GameOn
    ensures h.state != Pause ==> r.state == Pause
    ensures r.(state := h.state) == h
  {
    if h.state == Pause then ChangeState(h, GameOn) else ChangeState(h, Pause)
  }

  /** Pressing P twice gets back to where it started exactly from Pause or GameOn; from
      the menu or a forced pause it lands in GameOn. */
  lemma TogglePauseTwice(h: Handler)
    ensures TogglePause(TogglePause(h)) == h <==> h.state in {Pause, GameOn}
    ensures h.state !in {Pause, GameOn} ==> TogglePause(TogglePause(h)).state == GameOn
  {
  }
}

=== FILE: filesort.dfy ===
/** particle_file_sort of data/particles.py: frame files named "N.png" are
    ordered by the number N, and the names are rebuilt from the numbers.

    The name is cut with obj[:-4] (the last four characters are dropped
    whatever they are), the rest goes through Python's int(), the integers
    are sorted and each is written back with str(n) + ".png". */
module FileSort {
  import opened Common

  // ---------------------------------------------------------------- str()

  predicate IsDigit(c: char)
  {
    '0' <= c <= '9'
  }

  predicate AllDigits(s: string)
  {
    forall i :: 0 <= i < |s| ==> IsDigit(s[i])
  }

  function DigitChar(d: nat): (c: char)
    requires d < 10
    ensures IsDigit(c)
  {
    ('0' as int + d) as char
  }

  function DigitValue(c: char): (d: nat)
    requires IsDigit(c)
    ensures d < 10
  {
    c as int - '0' as int
  }

  /** str(n) for a natural number: decimal, no leading zeros. */
  function ShowNat(n: nat): (s: string)
    ensures |s| > 0 && AllDigits(s)
    ensures |s| > 1 ==> s[0] != '0'
    decreases n
  {
    if n < 10 then [DigitChar(n)] else ShowNat(n / 10) + [DigitChar(n % 10)]
  }

  /** str(n) for any integer. */
  function Show(n: int): string
  {
    if n < 0 then "-" + ShowNat(-n) else ShowNat(n)
  }

  /** The canonical frame-file name of frame number n. */
  function Name(n: int): string
  {
    Show(n) + ".png"
  }

  // ---------------------------------------------------------------- int()

  /** The ASCII characters int() strips from both ends: space, \t, \n, \v, \f, \r and
      the separators \x1c to \x1f. */
  predicate IsSpace(c: char)
  {
    c == ' ' || (9 as char <= c <= 13 as char) || (28 as char <= c <= 31 as char)
  }

  function TrimLeft(s: string): (r: string)
    ensures |r| <= |s|
    ensures r != [] ==> !IsSpace(r[0])
    decreases |s|
  {
    if s != [] && IsSpace(s[0]) then TrimLeft(s[1..]) else s
  }

  function TrimRight(s: string): (r: string)
    ensures |r| <= |s|
    ensures r != [] ==> !IsSpace(r[|r| - 1])
    decreases |s|
  {
    if s != [] && IsSpace(s[|s| - 1]) then TrimRight(s[..|s| - 1]) else s
  }

  /** Digits with single underscores between them, as int() accepts. */
  predicate IsDigitGroup(s: string)
  {
    && |s| > 0
    && IsDigit(s[0])
    && IsDigit(s[|s| - 1])
    && (forall i :: 0 <= i < |s| ==> IsDigit(s[i]) || s[i] == '_')
    && (forall i :: 0 <= i < |s| - 1 ==> IsDigit(s[i]) || IsDigit(s[i + 1]))
  }

  function DropUnderscores(s: string): (r: string)
    ensures |r| <= |s|
    ensures (forall i :: 0 <= i < |s| ==> IsDigit(s[i]) || s[i] == '_') ==> AllDigits(r)
  {
    if s == [] then []
    else (if s[0] == '_' then [] else [s[0]]) + DropUnderscores(s[1..])
  }

  /** The value of a digit string, most significant digit first. */
  function DigitsValue(s: string): nat
    requires AllDigits(s)
    decreases |s|
  {
    if s == [] then 0 else DigitsValue(s[..|s| - 1]) * 10 + DigitValue(s[|s| - 1])
  }

  /** Python's int() on a string; None where it raises ValueError. */
  function ParseInt(s: string): Option<int>
  {
    ParseSigned(TrimRight(TrimLeft(s)))
  }

  /** int() after the whitespace is gone: an optional sign, then a digit group. */
  function ParseSigned(t: string): Option<int>
  {
    if t == [] then None
    else
      var body := if t[0] == '-' || t[0] == '+' then t[1..] else t;
      if IsDigitGroup(body) then
        var m: int := DigitsValue(DropUnderscores(body));
        Some(if t[0] == '-' then -m else m)
      else None
  }

  /** obj[:-4]: everything but the last four characters (nothing when shorter). */
  function DropExtension(s: string): (r: string)
    ensures |s| >= 4 ==> |r| == |s| - 4 && r == s[..|s| - 4]
    ensures |s| < 4 ==> r == []
  {
    if |s| >= 4 then s[..|s| - 4] else []
  }

  function FrameNumber(file: string): Option<int>
  {
    ParseInt(DropExtension(file))
  }

  // ---------------------------------------------------------------- str/int round trip

  lemma {:induction false} ShowNatValue(n: nat)
    ensures DigitsValue(ShowNat(n)) == n
    decreases n
  {
    if n >= 10 {
      var s := ShowNat(n);
      assert s[..|s| - 1] == ShowNat(n / 10);
      ShowNatValue(n / 10);
    }
  }

  lemma {:induction false} DropUnderscoresOfDigits(s: string)
    requires AllDigits(s)
    ensures DropUnderscores(s) == s
    decreases |s|
  {
    if s != [] {
      DropUnderscoresOfDigits(s[1..]);
    }
  }

  /** A string that starts and ends with a non-space is left alone by the trim. */
  lemma TrimNoop(s: string)
    requires s != [] && !IsSpace(s[0]) && !IsSpace(s[|s| - 1])
    ensures TrimRight(TrimLeft(s)) == s
  {
    assert TrimLeft(s) == s;
  }

  /** A plain digit string is a digit group and has no underscore to drop. */
  lemma DigitsAreAGroup(d: string)
    requires |d| > 0 && AllDigits(d)
    ensures IsDigitGroup(d) && DropUnderscores(d) == d
  {
    DropUnderscoresOfDigits(d);
  }

  lemma ParseSignedDigits(d: string)
    requires |d| > 0 && AllDigits(d)
    ensures ParseSigned(d) == Some(DigitsValue(d))
  {
    DigitsAreAGroup(d);
    assert d[0] != '-' && d[0] != '+';
  }

  lemma ParseSignedNegated(e: string)
    requires |e| > 1 && e[0] == '-' && AllDigits(e[1..])
    ensures ParseSigned(e) == Some(-(DigitsValue(e[1..]) as int))
  {
    DigitsAreAGroup(e[1..]);
  }

  lemma ParseShowDigits(d: string, v: int)
    requires |d| > 0 && AllDigits(d) && DigitsValue(d) == v
    ensures ParseInt(d) == Some(v)
  {
    ParseTrimmed(d);
    ParseSignedDigits(d);
  }

  lemma ParseShowNegative(e: string, v: int)
    requires |e| > 1 && e[0] == '-' && AllDigits(e[1..]) && DigitsValue(e[1..]) == v
    ensures ParseInt(e) == Some(-v)
  {
    assert IsDigit(e[1..][|e| - 2]);
    ParseTrimmed(e);
    ParseSignedNegated(e);
  }

  lemma ParseTrimmed(s: string)
    requires s != [] && !IsSpace(s[0]) && !IsSpace(s[|s| - 1])
    ensures ParseInt(s) == ParseSigned(s)
  {
    TrimNoop(s);
  }

  /** int(str(n)) == n for every integer. */
  lemma ParseShow(n: int)
    ensures ParseInt(Show(n)) == Some(n)
  {
    if n < 0 {
      ShowNatValue(-n);
      var e := Show(n);
      assert e[1..] == ShowNat(-n);
      ParseShowNegative(e, -n);
    } else {
      ShowNatValue(n);
      ParseShowDigits(ShowNat(n), n);
    }
  }

  /** Cutting the extension off a canonical name and parsing it gives the number back. */
  lemma FrameNumberOfName(n: int)
    ensures FrameNumber(Name(n)) == Some(n)
  {
    assert DropExtension(Name(n)) == Show(n);
    ParseShow(n);
  }

  // ---------------------------------------------------------------- sorting

  ghost predicate Ascending(s: seq<int>)
  {
    forall i, j :: 0 <= i < j < |s| ==> s[i] <= s[j]
  }

  function Insert(x: int, s: seq<int>): (r: seq<int>)
    requires Ascending(s)
    ensures |r| == |s| + 1
    ensures r[0] == (if s == [] || x <= s[0] then x else s[0])
    ensures Ascending(r)
    ensures multiset(r) == multiset(s) + multiset{x}
    decreases |s|
  {
    if s == [] || x <= s[0] then [x] + s
    else
      assert s == [s[0]] + s[1..];
      var t := Insert(x, s[1..]);
      assert t[0] >= s[0];
      [s[0]] + t
  }

  /** list.sort() on integers, as an insertion sort. */
  function SortInts(s: seq<int>): (r: seq<int>)
    ensures Ascending(r)
    ensures multiset(r) == multiset(s)
    decreases |s|
  {
    if s == [] then []
    else
      assert s == [s[0]] + s[1..];
      Insert(s[0], SortInts(s[1..]))
  }

  /** An ascending sequence is fixed by its multiset: any sort gives the same list. */
  lemma {:induction false} AscendingPermutationUnique(a: seq<int>, b: seq<int>)
    requires Ascending(a) && Ascending(b)
    requires multiset(a) == multiset(b)
    ensures a == b
    decreases |a|
  {
    if a == [] {
      assert |multiset(b)| == 0;
    } else {
      assert |b| == |multiset(b)| == |multiset(a)| == |a|;
      assert a == [a[0]] + a[1..];
      assert b == [b[0]] + b[1..];
      assert a[0] in multiset(b);
      assert b[0] in multiset(a);
      assert b[0] <= a[0] by {
        var k :| 0 <= k < |b| && b[k] == a[0];
      }
      assert a[0] <= b[0] by {
        var k :| 0 <= k < |a| && a[k] == b[0];
      }
      assert a[0] == b[0];
      assert multiset(a) == multiset{a[0]} + multiset(a[1..]);
      assert multiset(b) == multiset{b[0]} + multiset(b[1..]);
      assert multiset(a[1..]) == multiset(a) - multiset{a[0]};
      assert multiset(b[1..]) == multiset(b) - multiset{b[0]};
      AscendingPermutationUnique(a[1..], b[1..]);
    }
  }

  // ---------------------------------------------------------------- particle_file_sort

  /** The integers named by a list of files, in list order; int()'s ValueError otherwise. */
  function FrameNumbers(l: seq<string>): (r: Result<seq<int>>)
    ensures r.Ok? <==> forall i :: 0 <= i < |l| ==> FrameNumber(l[i]).Some?
    ensures r.Ok? ==> |r.value| == |l|
    ensures r.Ok? ==> forall i :: 0 <= i < |l| ==> FrameNumber(l[i]) == Some(r.value[i])
  {
    ParseAll(l, FrameNumber)
  }

  /** Parse every element in order, failing on the first one that does not parse. */
  function ParseAll(l: seq<string>, parse: string -> Option<int>): (r: Result<seq<int>>)
    ensures r.Ok? <==> forall i :: 0 <= i < |l| ==> parse(l[i]).Some?
    ensures r.Ok? ==> |r.value| == |l|
    ensures r.Ok? ==> forall i :: 0 <= i < |l| ==> parse(l[i]) == Some(r.value[i])
    decreases |l|
  {
    if l == [] then Ok([])
    else
      match parse(l[0])
      case None => Err(NotAnInteger(DropExtension(l[0])))
      case Some(n) =>
        var rest := ParseAll(l[1..], parse);
        if rest.Err? then rest
        else
          assert forall i :: 1 <= i < |l| ==> l[i] == l[1..][i - 1];
          Ok([n] + rest.value)
  }

  function MapSeq<A, B>(f: A -> B, s: seq<A>): (r: seq<B>)
    ensures |r| == |s|
    ensures forall i :: 0 <= i < |s| ==> r[i] == f(s[i])
  {
    seq(|s|, i requires 0 <= i < |s| => f(s[i]))
  }

  function Names(ns: seq<int>): (r: seq<string>)
    ensures |r| == |ns|
    ensures forall i :: 0 <= i < |ns| ==> r[i] == Name(ns[i])
  {
    MapSeq(Name, ns)
  }

  lemma NamesFrameNumbers(ns: seq<int>)
    ensures FrameNumbers(Names(ns)) == Ok(ns)
  {
    var l := Names(ns);
    forall i | 0 <= i < |l|
      ensures FrameNumber(l[i]) == Some(ns[i])
    {
      FrameNumberOfName(ns[i]);
    }
    assert FrameNumbers(l).value == ns;
  }

  /** particle_file_sort. */
  function ParticleFileSort(l: seq<string>): (r: Result<seq<string>>)
    ensures r.Ok? <==> forall i :: 0 <= i < |l| ==> FrameNumber(l[i]).Some?
    ensures r.Ok? ==> |r.value| == |l|
    // the output is the canonical names of the input's numbers, rearranged into ascending order
    ensures r.Ok? ==> exists ks :: r.value == Names(ks) && Ascending(ks)
                                   && multiset(ks) == multiset(FrameNumbers(l).value)
  {
    var ns :- FrameNumbers(l);
    var ks := SortInts(ns);
    assert Ascending(ks) && multiset(ks) == multiset(ns);
    assert exists k :: Names(ks) == Names(k) && Ascending(k) && multiset(k) == multiset(ns);
    Ok(Names(ks))
  }

  /** The result is the ascending arrangement of the input's numbers, whichever sort produced it. */
  lemma ParticleFileSortIsTheSortedOrder(l: seq<string>, ks: seq<int>)
    requires FrameNumbers(l).Ok?
    requires Ascending(ks) && multiset(ks) == multiset(FrameNumbers(l).value)
    ensures ParticleFileSort(l) == Ok(Names(ks))
  {
    AscendingPermutationUnique(SortInts(FrameNumbers(l).value), ks);
  }

  lemma MapCons<A, B>(f: A -> B, x: A, s: seq<A>)
    ensures MapSeq(f, [x] + s) == [f(x)] + MapSeq(f, s)
    ensures multiset(MapSeq(f, [x] + s)) == multiset{f(x)} + multiset(MapSeq(f, s))
  {
    assert MapSeq(f, [x] + s) == [f(x)] + MapSeq(f, s);
  }

  /** Renaming commutes with insertion, up to order. */
  lemma {:induction false} MapInsert<B>(f: int -> B, x: int, s: seq<int>)
    requires Ascending(s)
    ensures multiset(MapSeq(f, Insert(x, s))) == multiset{f(x)} + multiset(MapSeq(f, s))
    decreases |s|
  {
    if s == [] || x <= s[0] {
      MapCons(f, x, s);
    } else {
      assert s == [s[0]] + s[1..];
      MapInsert(f, x, s[1..]);
      MapCons(f, s[0], Insert(x, s[1..]));
      MapCons(f, s[0], s[1..]);
    }
  }

  /** Renaming the sorted numbers gives the same names as renaming the input, up to order. */
  lemma {:induction false} MapSort<B>(f: int -> B, s: seq<int>)
    ensures multiset(MapSeq(f, SortInts(s))) == multiset(MapSeq(f, s))
    decreases |s|
  {
    if s != [] {
      assert s == [s[0]] + s[1..];
      MapSort(f, s[1..]);
      MapInsert(f, s[0], SortInts(s[1..]));
      MapCons(f, s[0], s[1..]);
    }
  }

  /** For canonical names the sort only rearranges its input: it is a permutation. */
  lemma CanonicalNamesArePermuted(ns: seq<int>)
    ensures ParticleFileSort(Names(ns)).Ok?
    ensures multiset(ParticleFileSort(Names(ns)).value) == multiset(Names(ns))
  {
    NamesFrameNumbers(ns);
    MapSort(Name, ns);
  }

  /** Sorting an already sorted listing changes nothing. */
  lemma ParticleFileSortIdempotent(l: seq<string>)
    requires forall i :: 0 <= i < |l| ==> FrameNumber(l[i]).Some?
    ensures ParticleFileSort(l).Ok?
    ensures ParticleFileSort(ParticleFileSort(l).value) == ParticleFileSort(l)
  {
    assert ParticleFileSort(l).Ok?;
    var sorted := SortInts(FrameNumbers(l).value);
    NamesFrameNumbers(sorted);
    AscendingPermutationUnique(SortInts(sorted), sorted);
    assert ParticleFileSort(l).value == Names(sorted);
  }
}

=== FILE: mapedges.dfy ===
/** The world's bounding box and the camera that is clamped to it.

    Data.load_map folds every tile of the loaded map into four edges (left,
    right, top, bottom, starting at +inf, -inf, +inf, -inf); App.render moves
    the camera a twelfth of the way towards the player each tick and then
    clamps it into those edges.

    The fold as written compares a tile's left x against the right edge and
    then stores its right x, so a tile one column past the current maximum
    is missed and the box depends on the order of the tiles.
    `StepAsWritten` keeps that behaviour and is what the world's map load
    uses; `Step` is the evidently intended comparison, with the properties
    the fold was meant to have proved about it. */
module MapEdges {
  import opened Common

  /** A coordinate that may still be one of the infinite start values. */
  datatype Bound = NegInf | Fin(v: int) | PosInf

  /** The order on bounds: -inf below every integer, +inf above. */
  predicate LeB(a: Bound, b: Bound)
  {
    a.NegInf? || b.PosInf? || (a.Fin? && b.Fin? && a.v <= b.v)
  }

  /** x < b */
  predicate Below(x: int, b: Bound)
  {
    b.PosInf? || (b.Fin? && x < b.v)
  }

  /** x > b */
  predicate Above(x: int, b: Bound)
  {
    b.NegInf? || (b.Fin? && x > b.v)
  }

  /** [left, right, top, bottom]: the source's edges list `x, -x, y, -y`. */
  datatype Edges = Edges(left: Bound, right: Bound, top: Bound, bottom: Bound)

  const INITIAL_EDGES: Edges := Edges(PosInf, NegInf, PosInf, NegInf)

  /** A key of the tile map: grid column and row. */
  datatype Tile = Tile(col: int, row: int)

  // ---------------------------------------------------------------- the fold as written

  /** One iteration of the load_map loop as written: the right and bottom edges are
      moved only when the tile's top-left corner lies beyond them, and then to its
      far side. */
  function StepAsWritten(e: Edges, t: Tile, cell: int): (r: Edges)
    ensures LeB(r.left, Fin(t.col * cell)) && LeB(r.top, Fin(t.row * cell))
    ensures LeB(r.left, e.left) && LeB(r.top, e.top)
  {
    var x := t.col * cell;
    var y := t.row * cell;
    Edges(if Below(x, e.left) then Fin(x) else e.left,
          if Above(x, e.right) then Fin(x + cell) else e.right,
          if Below(y, e.top) then Fin(y) else e.top,
          if Above(y, e.bottom) then Fin(y + cell) else e.bottom)
  }

  /** The load_map loop as written, over the tiles in the order the map lists them. */
  function FoldAsWritten(e: Edges, tiles: seq<Tile>, cell: int): (r: Edges)
    // the left and top edges only move outwards
    ensures LeB(r.left, e.left) && LeB(r.top, e.top)
    // once a tile has been seen, every edge that did not start at the wrong infinity is finite
    ensures tiles != [] ==> (e.left != NegInf ==> r.left.Fin?) && (e.right != PosInf ==> r.right.Fin?)
                            && (e.top != NegInf ==> r.top.Fin?) && (e.bottom != PosInf ==> r.bottom.Fin?)
    decreases |tiles|
  {
    if tiles == [] then e else FoldAsWritten(StepAsWritten(e, tiles[0], cell), tiles[1..], cell)
  }

  /** Two 16-pixel tiles side by side: as written the right edge stops at 16, so the
      second tile (spanning 16 to 32) sticks out of the box; listed the other way round
      the same map gets the right edge 32. */
  lemma AsWrittenMissesTheLastColumn()
    ensures FoldAsWritten(INITIAL_EDGES, [Tile(0, 0), Tile(1, 0)], 16).right == Fin(16)
    ensures FoldAsWritten(INITIAL_EDGES, [Tile(1, 0), Tile(0, 0)], 16).right == Fin(32)
  {
    var e1 := StepAsWritten(INITIAL_EDGES, Tile(0, 0), 16);
    assert e1 == Edges(Fin(0), Fin(16), Fin(0), Fin(16));
    var e2 := StepAsWritten(e1, Tile(1, 0), 16);
    assert e2 == Edges(Fin(0), Fin(16), Fin(0), Fin(16));
    assert [Tile(0, 0), Tile(1, 0)][1..] == [Tile(1, 0)];
    assert FoldAsWritten(e1, [Tile(1, 0)], 16) == FoldAsWritten(e2, [], 16);
    var f1 := StepAsWritten(INITIAL_EDGES, Tile(1, 0), 16);
    assert f1 == Edges(Fin(16), Fin(32), Fin(0), Fin(16));
    var f2 := StepAsWritten(f1, Tile(0, 0), 16);
    assert f2 == Edges(Fin(0), Fin(32), Fin(0), Fin(16));
    assert [Tile(1, 0), Tile(0, 0)][1..] == [Tile(0, 0)];
    assert FoldAsWritten(f1, [Tile(0, 0)], 16) == FoldAsWritten(f2, [], 16);
  }

  /** From the start values, the fold as written gives four finite edges exactly when
      the map has a tile. */
  lemma AsWrittenFoldIsFinite(tiles: seq<Tile>, cell: int)
    ensures |tiles| > 0 <==> Finite(FoldAsWritten(INITIAL_EDGES, tiles, cell))
  {
  }

  /** The edges are never reset between loads: loading `a` and then `b` is one load of
      both maps, in that order. */
  lemma {:induction false} FoldAsWrittenAppend(e: Edges, a: seq<Tile>, b: seq<Tile>, cell: int)
    ensures FoldAsWritten(FoldAsWritten(e, a, cell), b, cell) == FoldAsWritten(e, a + b, cell)
    decreases |a|
  {
    if a == [] {
      assert a + b == b;
    } else {
      assert (a + b)[0] == a[0];
      assert (a + b)[1..] == a[1..] + b;
      FoldAsWrittenAppend(StepAsWritten(e, a[0], cell), a[1..], b, cell);
    }
  }

  /** With a non-negative cell size one step as written grows the box and takes in the
      tile's top-left corner. */
  lemma StepAsWrittenGrows(e: Edges, t: Tile, cell: int)
    requires cell >= 0
    ensures var r := StepAsWritten(e, t, cell);
            && LeB(Fin(t.col * cell), r.right) && LeB(Fin(t.row * cell), r.bottom)
            && Within(e, r)
  {
  }

  /** The tile's top-left corner lies inside the box. */
  predicate HasCorner(e: Edges, t: Tile, cell: int)
  {
    LeB(e.left, Fin(t.col * cell)) && LeB(Fin(t.col * cell), e.right)
    && LeB(e.top, Fin(t.row * cell)) && LeB(Fin(t.row * cell), e.bottom)
  }

  /** What the fold as written does guarantee: every tile's top-left corner is inside
      the box (edges[0] <= x <= edges[1], edges[2] <= y <= edges[3]). */
  lemma {:induction false} FoldAsWrittenKeepsCorners(e: Edges, tiles: seq<Tile>, cell: int)
    requires cell >= 0
    ensures Within(e, FoldAsWritten(e, tiles, cell))
    ensures forall i :: 0 <= i < |tiles| ==> HasCorner(FoldAsWritten(e, tiles, cell), tiles[i], cell)
    decreases |tiles|
  {
    if tiles != [] {
      var e1 := StepAsWritten(e, tiles[0], cell);
      var r := FoldAsWritten(e1, tiles[1..], cell);
      StepAsWrittenGrows(e, tiles[0], cell);
      FoldAsWrittenKeepsCorners(e1, tiles[1..], cell);
      WithinTrans(e, e1, r);
      var x := tiles[0].col * cell;
      var y := tiles[0].row * cell;
      LeBTrans(r.left, e1.left, Fin(x));
      LeBTrans(Fin(x), e1.right, r.right);
      LeBTrans(r.top, e1.top, Fin(y));
      LeBTrans(Fin(y), e1.bottom, r.bottom);
      assert forall i :: 1 <= i < |tiles| ==> tiles[i] == tiles[1..][i - 1];
    }
  }

  // ---------------------------------------------------------------- the intended fold

  /** One iteration of the load_map loop with the intended comparison: every edge
      moves out just far enough to take in the whole tile. */
  function Step(e: Edges, t: Tile, cell: int): (r: Edges)
    // the tile lies inside the new box
    ensures LeB(r.left, Fin(t.col * cell)) && LeB(Fin(t.col * cell + cell), r.right)
    ensures LeB(r.top, Fin(t.row * cell)) && LeB(Fin(t.row * cell + cell), r.bottom)
    // the box only grows
    ensures LeB(r.left, e.left) && LeB(e.right, r.right)
    ensures LeB(r.top, e.top) && LeB(e.bottom, r.bottom)
    // and each edge is either kept or set to the tile's own side
    ensures r.left == e.left || r.left == Fin(t.col * cell)
    ensures r.right == e.right || r.right == Fin(t.col * cell + cell)
    ensures r.top == e.top || r.top == Fin(t.row * cell)
    ensures r.bottom == e.bottom || r.bottom == Fin(t.row * cell + cell)
  {
    var x := t.col * cell;
    var y := t.row * cell;
    Edges(if Below(x, e.left) then Fin(x) else e.left,
          if Above(x + cell, e.right) then Fin(x + cell) else e.right,
          if Below(y, e.top) then Fin(y) else e.top,
          if Above(y + cell, e.bottom) then Fin(y + cell) else e.bottom)
  }

  /** The load_map loop over the tiles in the order the map lists them. */
  function FoldEdges(e: Edges, tiles: seq<Tile>, cell: int): Edges
    decreases |tiles|
  {
    if tiles == [] then e else FoldEdges(Step(e, tiles[0], cell), tiles[1..], cell)
  }

  /** Box containment: every edge of `inner` lies within `outer`. */
  predicate Within(inner: Edges, outer: Edges)
  {
    LeB(outer.left, inner.left) && LeB(inner.right, outer.right)
    && LeB(outer.top, inner.top) && LeB(inner.bottom, outer.bottom)
  }

  /** A tile lies inside the box. */
  predicate Covers(e: Edges, t: Tile, cell: int)
  {
    LeB(e.left, Fin(t.col * cell)) && LeB(Fin(t.col * cell + cell), e.right)
    && LeB(e.top, Fin(t.row * cell)) && LeB(Fin(t.row * cell + cell), e.bottom)
  }

  lemma LeBTrans(a: Bound, b: Bound, c: Bound)
    requires LeB(a, b) && LeB(b, c)
    ensures LeB(a, c)
  {
  }

  lemma WithinTrans(a: Edges, b: Edges, c: Edges)
    requires Within(a, b) && Within(b, c)
    ensures Within(a, c)
  {
    LeBTrans(c.left, b.left, a.left);
    LeBTrans(a.right, b.right, c.right);
    LeBTrans(c.top, b.top, a.top);
    LeBTrans(a.bottom, b.bottom, c.bottom);
  }

  lemma CoversWithin(e: Edges, f: Edges, t: Tile, cell: int)
    requires Covers(e, t, cell) && Within(e, f)
    ensures Covers(f, t, cell)
  {
    LeBTrans(f.left, e.left, Fin(t.col * cell));
    LeBTrans(Fin(t.col * cell + cell), e.right, f.right);
    LeBTrans(f.top, e.top, Fin(t.row * cell));
    LeBTrans(Fin(t.row * cell + cell), e.bottom, f.bottom);
  }

  /** Folding more tiles in only ever grows the box. */
  lemma {:induction false} FoldEdgesGrows(e: Edges, tiles: seq<Tile>, cell: int)
    ensures Within(e, FoldEdges(e, tiles, cell))
    decreases |tiles|
  {
    if tiles != [] {
      var e1 := Step(e, tiles[0], cell);
      FoldEdgesGrows(e1, tiles[1..], cell);
      WithinTrans(e, e1, FoldEdges(e1, tiles[1..], cell));
    }
  }

  /** Every tile of the map lies inside the edges the fold computes. */
  lemma {:induction false} FoldEdgesCoversEveryTile(e: Edges, tiles: seq<Tile>, cell: int)
    ensures forall i :: 0 <= i < |tiles| ==> Covers(FoldEdges(e, tiles, cell), tiles[i], cell)
    decreases |tiles|
  {
    if tiles != [] {
      var e1 := Step(e, tiles[0], cell);
      var r := FoldEdges(e1, tiles[1..], cell);
      FoldEdgesCoversEveryTile(e1, tiles[1..], cell);
      FoldEdgesGrows(e1, tiles[1..], cell);
      CoversWithin(e1, r, tiles[0], cell);
      assert forall i :: 1 <= i < |tiles| ==> tiles[i] == tiles[1..][i - 1];
    }
  }

  /** The box is tight: each edge is either where it started or the matching side of
      some tile. */
  lemma {:induction false} FoldEdgesIsTight(e: Edges, tiles: seq<Tile>, cell: int)
    ensures var r := FoldEdges(e, tiles, cell);
            && (r.left == e.left || exists i :: 0 <= i < |tiles| && r.left == Fin(tiles[i].col * cell))
            && (r.right == e.right || exists i :: 0 <= i < |tiles| && r.right == Fin(tiles[i].col * cell + cell))
            && (r.top == e.top || exists i :: 0 <= i < |tiles| && r.top == Fin(tiles[i].row * cell))
            && (r.bottom == e.bottom || exists i :: 0 <= i < |tiles| && r.bottom == Fin(tiles[i].row * cell + cell))
    decreases |tiles|
  {
    if tiles != [] {
      var e1 := Step(e, tiles[0], cell);
      FoldEdgesIsTight(e1, tiles[1..], cell);
      assert forall i :: 1 <= i < |tiles| ==> tiles[i] == tiles[1..][i - 1];
    }
  }

  /** From the start values, a map with at least one tile gets four finite edges, each
      one the side of some tile. */
  lemma InitialFoldIsFinite(tiles: seq<Tile>, cell: int)
    ensures var r := FoldEdges(INITIAL_EDGES, tiles, cell);
            |tiles| > 0 <==> r.left.Fin? && r.right.Fin? && r.top.Fin? && r.bottom.Fin?
  {
    var r := FoldEdges(INITIAL_EDGES, tiles, cell);
    FoldEdgesIsTight(INITIAL_EDGES, tiles, cell);
    FoldEdgesCoversEveryTile(INITIAL_EDGES, tiles, cell);
    if |tiles| > 0 {
      assert Covers(r, tiles[0], cell);
    }
  }

  /** The edges are never reset between loads, so loading `a` and then `b` gives the
      box of both maps together. */
  lemma {:induction false} FoldEdgesAppend(e: Edges, a: seq<Tile>, b: seq<Tile>, cell: int)
    ensures FoldEdges(FoldEdges(e, a, cell), b, cell) == FoldEdges(e, a + b, cell)
    decreases |a|
  {
    if a == [] {
      assert a + b == b;
    } else {
      assert (a + b)[0] == a[0];
      assert (a + b)[1..] == a[1..] + b;
      FoldEdgesAppend(Step(e, a[0], cell), a[1..], b, cell);
    }
  }

  /** Two tiles give the same box whichever comes first. */
  lemma StepsCommute(e: Edges, s: Tile, t: Tile, cell: int)
    ensures Step(Step(e, s, cell), t, cell) == Step(Step(e, t, cell), s, cell)
  {
  }

  /** Neighbouring tiles can be swapped in the map order without changing the box. */
  lemma SwapNeighbours(e: Edges, a: seq<Tile>, s: Tile, t: Tile, b: seq<Tile>, cell: int)
    ensures FoldEdges(e, a + [s, t] + b, cell) == FoldEdges(e, a + [t, s] + b, cell)
  {
    var m := FoldEdges(e, a, cell);
    FoldEdgesAppend(e, a, [s, t] + b, cell);
    FoldEdgesAppend(e, a, [t, s] + b, cell);
    assert a + [s, t] + b == a + ([s, t] + b);
    assert a + [t, s] + b == a + ([t, s] + b);
    assert ([s, t] + b)[1..][1..] == b;
    assert ([t, s] + b)[1..][1..] == b;
    StepsCommute(m, s, t, cell);
  }

  // ---------------------------------------------------------------- the camera

  /** The view follows its target by a twelfth of the remaining gap; the target puts
      the player at the middle of a view `size` pixels across (size // 2). */
  function Follow(offset: real, pos: real, size: nat): (r: real)
    ensures r - (pos - (size / 2) as real) == (offset - (pos - (size / 2) as real)) * (11.0 / 12.0)
  {
    offset + ((pos - (size / 2) as real) - offset) / 12.0
  }

  /** The view never shows past the low edge and then never past the high edge; the
      second test wins when the map is narrower than the view. */
  function Clamp(o: real, lo: int, hi: int, size: nat): (r: real)
    ensures r + size as real <= hi as real
    ensures hi - lo >= size ==> lo as real <= r
    ensures hi - lo < size ==> r == (hi - size) as real
    ensures lo as real <= o && o + size as real <= hi as real ==> r == o
  {
    var o1 := if o < lo as real then lo as real else o;
    if o1 + size as real > hi as real then (hi - size) as real else o1
  }

  predicate Finite(e: Edges)
  {
    e.left.Fin? && e.right.Fin? && e.top.Fin? && e.bottom.Fin?
  }

  /** The scroll-offset block of App.render: follow the player, then clamp each axis. */
  function Camera(offset: Vec, pos: Vec, e: Edges, width: nat, height: nat): (r: Vec)
    requires Finite(e)
    ensures r.x + width as real <= e.right.v as real && r.y + height as real <= e.bottom.v as real
    ensures e.right.v - e.left.v >= width ==> e.left.v as real <= r.x
    ensures e.bottom.v - e.top.v >= height ==> e.top.v as real <= r.y
  {
    Vec(Clamp(Follow(offset.x, pos.x, width), e.left.v, e.right.v, width),
        Clamp(Follow(offset.y, pos.y, height), e.top.v, e.bottom.v, height))
  }

  /** Once the view sits at its target inside the box, it stays put. */
  lemma CameraAtRest(offset: Vec, pos: Vec, e: Edges, width: nat, height: nat)
    requires Finite(e)
    requires offset == Vec(pos.x - (width / 2) as real, pos.y - (height / 2) as real)
    requires e.left.v as real <= offset.x && offset.x + width as real <= e.right.v as real
    requires e.top.v as real <= offset.y && offset.y + height as real <= e.bottom.v as real
    ensures Camera(offset, pos, e, width, height) == offset
  {
  }

  /** Away from the edges, every tick closes the gap to the target by a twelfth. */
  lemma CameraClosesGap(offset: Vec, pos: Vec, e: Edges, width: nat, height: nat)
    requires Finite(e)
    requires var fx := Follow(offset.x, pos.x, width);
             e.left.v as real <= fx && fx + width as real <= e.right.v as real
    ensures var gx := pos.x - (width / 2) as real;
            Camera(offset, pos, e, width, height).x - gx == (offset.x - gx) * (11.0 / 12.0)
  {
  }
}

=== FILE: particles.dfy ===
/** The glow particle of data/particles.py: construction, the per-tick
    update, and the game loop's update-and-prune pass over all of them.

    The image table the source loads from disk is represented only by what
    the update reads from it: the number of frames in each type's strip. */
module Particles {
  import opened Common
  import opened Prune

  /** Frames per particle type, as the loaded image table holds them. */
  type Strips = map<string, nat>

  datatype Particle = Particle(
    x: real, y: real,
    kind: string,
    motion: Vec,
    color: Option<Rgb>,
    frame: real,
    physics: bool,
    tempMotion: Vec,
    decayRate: real,
    timeLeft: real,
    render: bool,
    randomConstant: real)

  /** time_left as both the constructor and the update compute it. */
  predicate TimeLeftConsistent(p: Particle, strips: Strips)
  {
    p.kind in strips && p.timeLeft == strips[p.kind] as real + 1.0 - p.frame
  }

  /** Particle.__init__.  `randomDraw` is the value random.randint(20, 30) returned;
      an unknown type raises KeyError on the image table. */
  function Make(x: real, y: real, kind: string, motion: Vec, decayRate: real, startFrame: real,
                color: Option<Rgb>, physics: bool, randomDraw: int, strips: Strips): (r: Result<Particle>)
    requires 20 <= randomDraw <= 30
    ensures r.Ok? <==> kind in strips
    ensures r.Err? ==> r.fault == UnknownParticleType(kind)
    ensures r.Ok? ==> var p := r.value;
                      && p.x == x && p.y == y && p.kind == kind && p.motion == motion
                      && p.color == color && p.physics == physics && p.decayRate == decayRate
                      && p.frame == startFrame
                      && TimeLeftConsistent(p, strips)
                      && p.tempMotion == ZERO
                      && p.render
                      && 2.0 / 3.0 <= p.randomConstant <= 1.0
  {
    if kind !in strips then Err(UnknownParticleType(kind))
    else
      Ok(Particle(x, y, kind, motion, color, startFrame, physics, ZERO, decayRate,
                  strips[kind] as real + 1.0 - startFrame, true, randomDraw as real / 30.0))
  }

  /** What Particle.update leaves behind: the particle and the flag it returns. */
  datatype Updated = Updated(particle: Particle, running: bool)

  /** Particle.update.  The frame advances by the decay rate alone; `dt` is passed
      in by the caller and never read.  The nested "+ 1" test inside the overflow
      branch is followed unconditionally by running = False, so only the strip
      length decides. */
  function Update(p: Particle, dt: real, strips: Strips): (r: Result<Updated>)
    ensures r.Ok? <==> p.kind in strips
    ensures r.Err? ==> r.fault == UnknownParticleType(p.kind)
    ensures r.Ok? ==> var q := r.value.particle;
                      && q.frame == p.frame + p.decayRate
                      && TimeLeftConsistent(q, strips)
                      && r.value.running == q.render
                      && (r.value.running <==> q.frame < strips[p.kind] as real)
                      && (r.value.running <==> q.timeLeft > 1.0)
                      && (!p.physics ==> q.x == p.x + p.tempMotion.x + p.motion.x
                                         && q.y == p.y + p.tempMotion.y + p.motion.y)
                      && (p.physics ==> q.x == p.x && q.y == p.y)
                      && q.tempMotion == ZERO
                      && q == p.(x := q.x, y := q.y, frame := q.frame, timeLeft := q.timeLeft,
                                 render := q.render, tempMotion := ZERO)
  {
    if p.kind !in strips then Err(UnknownParticleType(p.kind))
    else
      var q := Advance(p, strips[p.kind]);
      Ok(Updated(q, q.render))
  }

  /** The state change of Particle.update for a strip of `len` frames; rendering stops
      once the frame runs off the strip. */
  function Advance(p: Particle, len: nat): Particle
  {
    var frame := p.frame + p.decayRate;
    var pos := if p.physics then Vec(p.x, p.y) else Add(Vec(p.x, p.y), Add(p.tempMotion, p.motion));
    p.(x := pos.x, y := pos.y, frame := frame, timeLeft := len as real + 1.0 - frame,
       render := frame < len as real, tempMotion := ZERO)
  }

  lemma UpdateIgnoresDt(p: Particle, dt1: real, dt2: real, strips: Strips)
    ensures Update(p, dt1, strips) == Update(p, dt2, strips)
  {
  }

  /** Update applied n times in a row (as long as the type is known). */
  function Age(p: Particle, strips: Strips, n: nat): Result<Particle>
    decreases n
  {
    if n == 0 then Ok(p)
    else
      var u :- Update(p, 0.0, strips);
      Age(u.particle, strips, n - 1)
  }

  /** After n updates the frame has moved by exactly n decay steps, time_left still
      agrees with it, and the particle is still running exactly while that frame is
      short of the strip length. */
  lemma {:induction false} AgeFrame(p: Particle, strips: Strips, n: nat)
    requires p.kind in strips
    ensures Age(p, strips, n).Ok?
    ensures Age(p, strips, n).value.frame == p.frame + n as real * p.decayRate
    ensures Age(p, strips, n).value.kind == p.kind
    ensures Age(p, strips, n).value.decayRate == p.decayRate
    ensures n > 0 ==> TimeLeftConsistent(Age(p, strips, n).value, strips)
    ensures n > 0 ==> (Age(p, strips, n).value.render
                       <==> p.frame + n as real * p.decayRate < strips[p.kind] as real)
    decreases n
  {
    if n > 0 {
      var q := Update(p, 0.0, strips).value.particle;
      AgeFrame(q, strips, n - 1);
      if n - 1 == 0 {
        assert Age(q, strips, 0) == Ok(q);
      }
    }
  }

  /** The update as a total step for the prune pass: a particle of a known type is
      updated, any other is left alone (the pass fails on it before this matters). */
  function ParticleStep(dt: real, strips: Strips): Particle -> Particle
  {
    (p: Particle) => if p.kind in strips then Advance(p, strips[p.kind]) else p
  }

  predicate Renders(q: Particle)
  {
    q.render
  }

  /** The game loop's pass over the particle list (iterated over a copy, so the
      removals do not disturb it): every particle is updated, and those whose update
      returned False are dropped.  The first particle of an unknown type raises KeyError. */
  function UpdateAll(ps: seq<Particle>, dt: real, strips: Strips): (r: Result<seq<Particle>>)
    ensures r.Ok? <==> forall i :: 0 <= i < |ps| ==> ps[i].kind in strips
    ensures r.Err? ==> r.fault.UnknownParticleType? && r.fault.kind !in strips
    // the pass is the reference update-then-filter, in order
    ensures r.Ok? ==> r.value == Pruned(ps, ParticleStep(dt, strips), Renders)
    decreases |ps|
  {
    if ps == [] then Ok([])
    else if ps[0].kind !in strips then Err(UnknownParticleType(ps[0].kind))
    else
      var rest :- UpdateAll(ps[1..], dt, strips);
      assert forall i :: 1 <= i < |ps| ==> ps[i] == ps[1..][i - 1];
      var q := ParticleStep(dt, strips)(ps[0]);
      Ok((if Renders(q) then [q] else []) + rest)
  }

  /** The particle loop as main.py writes it: walk a copy of the list, update each
      particle where it sits and remove it by value when its update returned False.
      (main.py removes the object itself; every particle before it in the live list
      is still rendering and it is not, so it is the first element equal to it.) */
  method ParticlePass(ps: seq<Particle>, dt: real, strips: Strips) returns (r: Result<seq<Particle>>)
    ensures r.Ok? <==> UpdateAll(ps, dt, strips).Ok?
    ensures r.Err? ==> r.fault.UnknownParticleType? && r.fault.kind !in strips
    ensures r.Ok? ==> r.value == UpdateAll(ps, dt, strips).value
  {
    if forall i :: 0 <= i < |ps| ==> ps[i].kind in strips {
      var l := PruneInPlace(ps, ParticleStep(dt, strips), Renders);
      r := Ok(l);
    } else {
      var i :| 0 <= i < |ps| && ps[i].kind !in strips;
      r := Err(UnknownParticleType(ps[i].kind));
    }
  }

  /** What the pass keeps: at most the particles it was given, all rendering and with
      a consistent time_left, and a particle's update survives exactly when the update
      said it is still running. */
  lemma UpdateAllKeepsTheRunning(ps: seq<Particle>, dt: real, strips: Strips)
    requires forall i :: 0 <= i < |ps| ==> ps[i].kind in strips
    ensures var r := UpdateAll(ps, dt, strips).value;
            && |r| <= |ps|
            && (forall q :: q in r ==> q.render && TimeLeftConsistent(q, strips))
            && forall i :: 0 <= i < |ps| ==>
                 (Update(ps[i], dt, strips).value.running <==> Update(ps[i], dt, strips).value.particle in r)
  {
    var f := ParticleStep(dt, strips);
    var r := UpdateAll(ps, dt, strips).value;
    PrunedKeepsExactlyTheLive(ps, f, Renders);
    forall i | 0 <= i < |ps|
      ensures f(ps[i]) == Update(ps[i], dt, strips).value.particle
    {
    }
    forall q | q in r
      ensures q.render && TimeLeftConsistent(q, strips)
    {
      PrunedMembers(ps, f, Renders, q);
      var i :| 0 <= i < |ps| && q == f(ps[i]);
    }
  }


  /** Glow particles only advance while the game is on; otherwise the list is untouched. */
  function StepParticles(ps: seq<Particle>, dt: real, strips: Strips, gameOn: bool): (r: Result<seq<Particle>>)
    ensures !gameOn ==> r == Ok(ps)
    ensures gameOn ==> r == UpdateAll(ps, dt, strips)
  {
    if gameOn then UpdateAll(ps, dt, strips) else Ok(ps)
  }
}

=== FILE: prune.dfy ===
/** The update-and-prune idiom of the game loop, once for every effect family:

      for e in lst.copy():
          <update e in place>
          if <e is dead>: lst.remove(e)

    The loop walks a snapshot, the update mutates the element that both lists
    share, and list.remove deletes the first element EQUAL to it (by value for
    the list-shaped sparks and circles).  `Pruned` is the reference meaning, a
    map-then-filter; `PruneInPlace` follows the loop step by step and is proved
    to compute it. */
module Prune {

  /** Reference meaning: update every element, keep the live ones, in order. */
  function Pruned<T>(s: seq<T>, step: T -> T, alive: T -> bool): (r: seq<T>)
    ensures |r| <= |s|
    ensures forall k :: 0 <= k < |r| ==> alive(r[k])
    decreases |s|
  {
    if s == [] then []
    else
      var x := step(s[0]);
      (if alive(x) then [x] else []) + Pruned(s[1..], step, alive)
  }

  /** Membership, both ways: an element survives exactly when it is the update of
      some element and that update is alive. */
  lemma {:induction false} PrunedMembers<T>(s: seq<T>, step: T -> T, alive: T -> bool, y: T)
    ensures y in Pruned(s, step, alive) <==> alive(y) && exists i :: 0 <= i < |s| && y == step(s[i])
    decreases |s|
  {
    if s != [] {
      PrunedMembers(s[1..], step, alive, y);
      if exists i :: 0 <= i < |s| && y == step(s[i]) {
        var i :| 0 <= i < |s| && y == step(s[i]);
        if i > 0 {
          assert y == step(s[1..][i - 1]);
        }
      }
      if exists j :: 0 <= j < |s[1..]| && y == step(s[1..][j]) {
        var j :| 0 <= j < |s[1..]| && y == step(s[1..][j]);
        assert y == step(s[j + 1]);
      }
    }
  }

  /** Per element: the update of s[i] is kept exactly when it is alive. */
  lemma PrunedKeepsExactlyTheLive<T>(s: seq<T>, step: T -> T, alive: T -> bool)
    ensures forall i :: 0 <= i < |s| ==> (alive(step(s[i])) <==> step(s[i]) in Pruned(s, step, alive))
  {
    forall i | 0 <= i < |s|
      ensures alive(step(s[i])) <==> step(s[i]) in Pruned(s, step, alive)
    {
      PrunedMembers(s, step, alive, step(s[i]));
    }
  }

  lemma {:induction false} PrunedAppend<T>(a: seq<T>, b: seq<T>, step: T -> T, alive: T -> bool)
    ensures Pruned(a + b, step, alive) == Pruned(a, step, alive) + Pruned(b, step, alive)
    decreases |a|
  {
    if a == [] {
      assert a + b == b;
    } else {
      var x := step(a[0]);
      var h := if alive(x) then [x] else [];
      assert (a + b)[0] == a[0];
      assert (a + b)[1..] == a[1..] + b;
      assert Pruned(a + b, step, alive) == h + Pruned(a[1..] + b, step, alive);
      PrunedAppend(a[1..], b, step, alive);
    }
  }

  /** When nothing dies the pass is a plain map: every element is kept, updated, in place. */
  lemma {:induction false} PrunedAllAlive<T>(s: seq<T>, step: T -> T, alive: T -> bool)
    requires forall i :: 0 <= i < |s| ==> alive(step(s[i]))
    ensures |Pruned(s, step, alive)| == |s|
    ensures forall i :: 0 <= i < |s| ==> Pruned(s, step, alive)[i] == step(s[i])
    decreases |s|
  {
    if s != [] {
      assert forall i :: 0 <= i < |s[1..]| ==> alive(step(s[1..][i]));
      PrunedAllAlive(s[1..], step, alive);
    }
  }

  /** x after n updates, pruning aside. */
  function Iterate<T>(x: T, step: T -> T, n: nat): T
    decreases n
  {
    if n == 0 then x else Iterate(step(x), step, n - 1)
  }

  lemma {:induction false} IterateLast<T>(x: T, step: T -> T, n: nat)
    ensures Iterate(x, step, n + 1) == step(Iterate(x, step, n))
    decreases n
  {
    if n > 0 {
      IterateLast(step(x), step, n - 1);
    }
  }

  /** n ticks of the same pass over one list. */
  function RunPruned<T>(s: seq<T>, step: T -> T, alive: T -> bool, n: nat): seq<T>
    decreases n
  {
    if n == 0 then s else RunPruned(Pruned(s, step, alive), step, alive, n - 1)
  }

  lemma {:induction false} RunPrunedEmpty<T>(step: T -> T, alive: T -> bool, n: nat)
    ensures RunPruned([], step, alive, n) == []
    decreases n
  {
    if n > 0 {
      RunPrunedEmpty(step, alive, n - 1);
    }
  }

  /** Death is final along the orbit of x: a dead update stays dead when updated again. */
  ghost predicate DeathIsFinal<T>(x: T, step: T -> T, alive: T -> bool)
  {
    forall k: nat :: !alive(Iterate(x, step, k)) ==> !alive(step(Iterate(x, step, k)))
  }

  lemma {:induction false} DeadStaysDead<T>(x: T, step: T -> T, alive: T -> bool, j: nat, m: nat)
    requires DeathIsFinal(x, step, alive)
    requires j <= m && !alive(Iterate(x, step, j))
    ensures !alive(Iterate(x, step, m))
    decreases m - j
  {
    if j < m {
      IterateLast(x, step, j);
      DeadStaysDead(x, step, alive, j + 1, m);
    }
  }

  /** A lone element is still in the list after n ticks exactly while its n-th update
      is alive, and the list is empty from then on. */
  lemma {:induction false} LoneLifetime<T>(x: T, step: T -> T, alive: T -> bool, n: nat)
    requires DeathIsFinal(x, step, alive)
    ensures RunPruned([x], step, alive, n)
            == (if n == 0 || alive(Iterate(x, step, n)) then [Iterate(x, step, n)] else [])
    decreases n
  {
    if n > 0 {
      var y := step(x);
      assert Pruned([x], step, alive) == (if alive(y) then [y] else []) + Pruned([x][1..], step, alive);
      assert Iterate(x, step, n) == Iterate(y, step, n - 1);
      if alive(y) {
        forall k: nat | !alive(Iterate(y, step, k))
          ensures !alive(step(Iterate(y, step, k)))
        {
          assert Iterate(x, step, k + 1) == Iterate(y, step, k);
        }
        LoneLifetime(y, step, alive, n - 1);
      } else {
        RunPrunedEmpty(step, alive, n - 1);
        assert Iterate(x, step, 1) == y;
        DeadStaysDead(x, step, alive, 1, n);
      }
    }
  }

  /** list.remove(x): delete the first element equal to x (ValueError if there is none). */
  function RemoveFirst<T(==)>(l: seq<T>, x: T): (r: seq<T>)
    requires x in l
    ensures |r| == |l| - 1
    decreases |l|
  {
    if l[0] == x then l[1..] else [l[0]] + RemoveFirst(l[1..], x)
  }

  /** Removing by value a dead element that follows only live ones removes exactly that element. */
  lemma {:induction false} RemoveAfterLive<T>(p: seq<T>, x: T, rest: seq<T>, alive: T -> bool)
    requires forall k :: 0 <= k < |p| ==> alive(p[k])
    requires !alive(x)
    ensures RemoveFirst(p + [x] + rest, x) == p + rest
    decreases |p|
  {
    if p != [] {
      assert p[0] != x;
      assert (p + [x] + rest)[1..] == p[1..] + [x] + rest;
      RemoveAfterLive(p[1..], x, rest, alive);
    }
  }

  /** One turn of the loop: the element at the boundary is replaced by its update and,
      when dead, removed by value. */
  lemma PruneStep<T>(s: seq<T>, i: nat, step: T -> T, alive: T -> bool)
    requires i < |s|
    ensures var kept := Pruned(s[..i], step, alive);
            var x := step(s[i]);
            var l := kept + [x] + s[i + 1..];
            x in l
            && (alive(x) ==> l == Pruned(s[..i + 1], step, alive) + s[i + 1..])
            && (!alive(x) ==> RemoveFirst(l, x) == Pruned(s[..i + 1], step, alive) + s[i + 1..])
  {
    var kept := Pruned(s[..i], step, alive);
    var x := step(s[i]);
    var l := kept + [x] + s[i + 1..];
    assert l[|kept|] == x;
    assert s[..i + 1] == s[..i] + [s[i]];
    PrunedAppend(s[..i], [s[i]], step, alive);
    assert Pruned([s[i]], step, alive) == (if alive(x) then [x] else []);
    if !alive(x) {
      RemoveAfterLive(kept, x, s[i + 1..], alive);
    }
  }

  /** The game loop as written: iterate a snapshot, update each element where it sits
      in the live list, and remove it by value when it is dead. */
  method PruneInPlace<T(==)>(s: seq<T>, step: T -> T, alive: T -> bool) returns (l: seq<T>)
    ensures l == Pruned(s, step, alive)
  {
    l := s;
    var i := 0;
    while i < |s|
      invariant 0 <= i <= |s|
      invariant l == Pruned(s[..i], step, alive) + s[i..]
    {
      var kept := Pruned(s[..i], step, alive);
      var x := step(s[i]);
      assert l[|kept|] == s[i];
      l := l[|kept| := x];
      assert l == kept + [x] + s[i + 1..];
      PruneStep(s, i, step, alive);
      if !alive(x) {
        l := RemoveFirst(l, x);
      }
      i := i + 1;
    }
    assert s[..i] == s;
  }
}

=== FILE: world.dfy ===
/** The game world of main.py: the Data record, its reset and map load, one tick
    of App.render with its level mechanics and screenshake countdown, and the
    key and mouse handling of App.check_inputs.

    Everything the tick draws from outside the model (random draws, the
    movement the entity base class computes, the torch particles the tile loop
    spawns, trigonometry, the particle image table and the screen constants)
    comes in through `Config` and `TickInput`. */
module World {
  import opened Common
  import opened Entities
  import opened Particles
  import opened Effects
  import opened MapEdges
  import opened Events

  /** The screen and tile constants and the outside functions a tick relies on. */
  datatype Config = Config(
    cell: nat,                  // CELL_SIZE
    width: nat, height: nat,    // WIDTH, HEIGHT of the base display
    strips: Strips,             // frames per particle type
    cos: real -> real, sin: real -> real)

  datatype Data = Data(
    totalTime: int,
    offset: Vec,
    player: Option<Player>,
    inputs: Inputs,
    leftClicked: bool,
    screenshake: int,
    edges: Edges,
    handler: Handler,
    particles: seq<Particle>,
    sparks: seq<Spark>,
    circles: seq<Circle>,
    projectiles: seq<Projectile>)

  /** App: the shared data plus the mouse flags check_inputs keeps, and whether the
      process has exited. */
  datatype App = App(data: Data, leftClicked: bool, rightClicked: bool, exited: bool)

  // ---------------------------------------------------------------- Data

  /** Data.__init__ before the map is loaded. */
  function EmptyData(): (d: Data)
    ensures d.player.None? && d.edges == INITIAL_EDGES && d.handler == NewHandler()
    ensures d.totalTime == 0 && d.screenshake == 0 && d.offset == ZERO
    ensures d.particles == [] && d.sparks == [] && d.circles == [] && d.projectiles == []
  {
    Data(0, ZERO, None, NO_INPUT, false, 0, INITIAL_EDGES, NewHandler(), [], [], [], [])
  }

  /** Data.reset: the view, the player, the inputs, the shake and the particle,
      spark and circle lists go back to their start values; the level, the edges,
      the clock and the enemy projectiles are kept. */
  function Reset(d: Data): (r: Data)
    ensures r.offset == ZERO && r.player.None? && r.inputs == NO_INPUT && r.screenshake == 0
    ensures r.particles == [] && r.sparks == [] && r.circles == []
    ensures r.handler == d.handler && r.edges == d.edges && r.projectiles == d.projectiles
    ensures r.totalTime == d.totalTime && r.leftClicked == d.leftClicked
  {
    d.(offset := ZERO, player := None, particles := [], inputs := NO_INPUT,
       screenshake := 0, sparks := [], circles := [])
  }

  lemma ResetIdempotent(d: Data)
    ensures Reset(Reset(d)) == Reset(d)
  {
  }

  /** Data.load_map: a new player at the level's starting position, then the tiles
      folded into the edges as the loop is written (see MapEdges). */
  function LoadMap(d: Data, tiles: seq<Tile>, c: Config): (r: Result<Data>)
    ensures r.Ok? <==> d.handler.level in {0, 1}
    ensures !(0 <= d.handler.level <= 3) ==> r == Err(UnknownLevel(d.handler.level))
    ensures d.handler.level in {2, 3} ==> r == Err(EmptyStartingPosition(d.handler.level))
    ensures r.Ok? ==> r.value.player.Some?
                      && r.value.player.value == NewPlayer(r.value.player.value.x, r.value.player.value.y, Idle)
    ensures r.Ok? && d.handler.level == 1 ==> r.value.player.value.x == 150.0 && r.value.player.value.y == -10.0
    ensures r.Ok? && d.handler.level == 0 ==> r.value.player.value.x == 0.0 && r.value.player.value.y == -10.0
    ensures r.Ok? ==> r.value.edges == FoldAsWritten(d.edges, tiles, c.cell)
    // the old box is kept and every tile's top-left corner is added to it
    ensures r.Ok? ==> Within(d.edges, r.value.edges)
                      && forall i :: 0 <= i < |tiles| ==> HasCorner(r.value.edges, tiles[i], c.cell)
    ensures r.Ok? ==> r.value == d.(player := r.value.player, edges := r.value.edges)
  {
    FoldAsWrittenKeepsCorners(d.edges, tiles, c.cell);
    var pos :- StartingPos(d.handler);
    if |pos| != 2 then Err(EmptyStartingPosition(d.handler.level))
    else
      Ok(d.(player := Some(NewPlayer(pos[0] as real, pos[1] as real, Idle)),
            edges := FoldAsWritten(d.edges, tiles, c.cell)))
  }

  /** Data.__init__: load the first level's map. */
  function NewData(tiles: seq<Tile>, c: Config): (r: Result<Data>)
    ensures r.Ok?
    ensures r.value.player == Some(NewPlayer(150.0, -10.0, Idle))
    ensures r.value.handler == NewHandler()
    ensures forall i :: 0 <= i < |tiles| ==> HasCorner(r.value.edges, tiles[i], c.cell)
    ensures |tiles| > 0 <==> Finite(r.value.edges)
  {
    AsWrittenFoldIsFinite(tiles, c.cell);
    LoadMap(EmptyData(), tiles, c)
  }

  // ---------------------------------------------------------------- level mechanics

  /** The handler facts every reachable state keeps: the level is 0 or 1 (it starts at 1
      and only ever moves from 0 to 1), and the level timer only runs in a running
      level 1. */
  predicate LevelInvariant(h: Handler)
  {
    h.level in {0, 1} && h.levelTimer >= 0 && (h.levelTimer > 0 ==> h.level == 1 && h.levelRun)
  }

  /** Whether this tick's mechanics fire the level-1 volley. */
  predicate Fires(h: Handler)
  {
    h.state == GameOn && h.level == 1 && h.levelRun && h.levelTimer == 0
  }

  /** The volley: a shake of 8, fourteen projectiles and their sparks at the right
      edge of the view. */
  function FireVolley(d: Data, width: nat, ds: seq<LaneDraw>): (r: Data)
    requires ValidVolleyDraws(ds)
    ensures r.screenshake == 8
    ensures |r.projectiles| == |d.projectiles| + VOLLEY_SIZE
    ensures |r.sparks| == |d.sparks| + 3 * VOLLEY_SIZE
    // the old projectiles and sparks are kept, and the volley is added after them
    ensures r.projectiles[..|d.projectiles|] == d.projectiles
            && r.projectiles[|d.projectiles|..] == VolleyProjectiles(width, d.offset, ds)
    ensures r.sparks[..|d.sparks|] == d.sparks
            && r.sparks[|d.sparks|..] == VolleySparks(width, d.offset, ds)
    ensures r == d.(screenshake := 8, projectiles := r.projectiles, sparks := r.sparks)
  {
    d.(screenshake := 8,
       projectiles := d.projectiles + VolleyProjectiles(width, d.offset, ds),
       sparks := d.sparks + VolleySparks(width, d.offset, ds))
  }

  /** The level mechanics block of App.render.  Outside GameOn nothing happens.  In
      level 0 passing x = 120 moves to level 1; in level 1 passing x = 240 starts the
      level, and the first running tick fires the volley; every running tick counts
      the timer up.  Any other level reaches `self.dsta`, an attribute App does not
      have. */
  function LevelMechanics(d: Data, width: nat, ds: seq<LaneDraw>): (r: Result<Data>)
    requires ValidVolleyDraws(ds)
    ensures d.handler.state != GameOn ==> r == Ok(d)
    ensures d.handler.state == GameOn && d.handler.level !in {0, 1} ==> r == Err(MissingAttribute("dsta"))
    // the player is only looked at while a level waits to start
    ensures r.Err? <==> d.handler.state == GameOn
                        && (d.handler.level !in {0, 1} || (!d.handler.levelRun && d.player.None?))
    ensures Fires(d.handler) ==> r == Ok(FireVolley(d, width, ds).(handler := d.handler.(levelTimer := 1)))
    ensures d.handler.state == GameOn && d.handler.level == 1 && d.handler.levelRun && d.handler.levelTimer != 0
            ==> r == Ok(d.(handler := d.handler.(levelTimer := d.handler.levelTimer + 1)))
    ensures d.handler.state == GameOn && d.handler.level == 0 && !d.handler.levelRun && d.player.Some?
            ==> r == Ok(if d.player.value.x > LEVEL_START_POS[0] as real then d.(handler := d.handler.(level := 1)) else d)
    ensures d.handler.state == GameOn && d.handler.level == 1 && !d.handler.levelRun && d.player.Some?
            ==> r == Ok(if d.player.value.x > LEVEL_START_POS[1] as real then d.(handler := d.handler.(levelRun := true)) else d)
    ensures d.handler.state == GameOn && d.handler.level == 0 && d.handler.levelRun ==> r == Ok(d)
  {
    var h := d.handler;
    if h.state != GameOn then Ok(d)
    else if h.level == 0 then
      if h.levelRun then Ok(d)
      else if d.player.None? then Err(NoPlayer)
      else if d.player.value.x > LEVEL_START_POS[h.level] as real then Ok(d.(handler := h.(level := 1)))
      else Ok(d)
    else if h.level == 1 then
      if h.levelRun then
        var d1 := if h.levelTimer == 0 then FireVolley(d, width, ds) else d;
        Ok(d1.(handler := h.(levelTimer := h.levelTimer + 1)))
      else if d.player.None? then Err(NoPlayer)
      else if d.player.value.x > LEVEL_START_POS[h.level] as real then Ok(d.(handler := h.(levelRun := true)))
      else Ok(d)
    else Err(MissingAttribute("dsta"))
  }

  /** The mechanics keep the level invariant and never touch the game state. */
  lemma LevelMechanicsKeepsInvariant(d: Data, width: nat, ds: seq<LaneDraw>)
    requires ValidVolleyDraws(ds)
    requires LevelInvariant(d.handler)
    ensures LevelMechanics(d, width, ds).Ok? ==> LevelInvariant(LevelMechanics(d, width, ds).value.handler)
    ensures LevelMechanics(d, width, ds).Ok? ==> LevelMechanics(d, width, ds).value.handler.state == d.handler.state
    ensures d.player.Some? ==> LevelMechanics(d, width, ds).Ok?
  {
  }

  // ---------------------------------------------------------------- screenshake

  /** The shake counts down by one each tick until it reaches zero. */
  function Countdown(s: int): (r: int)
    ensures s > 0 ==> r == s - 1
    ensures s <= 0 ==> r == s
  {
    if s > 0 then s - 1 else s
  }

  function CountdownTimes(s: int, n: nat): int
    decreases n
  {
    if n == 0 then s else CountdownTimes(Countdown(s), n - 1)
  }

  /** After n ticks a shake of s has max(0, s - n) ticks left. */
  lemma {:induction false} CountdownClosedForm(s: nat, n: nat)
    ensures CountdownTimes(s, n) == if s >= n then s - n else 0
    decreases n
  {
    if n > 0 {
      CountdownClosedForm(Countdown(s), n - 1);
    }
  }

  // ---------------------------------------------------------------- one tick

  /** What a tick receives from outside: the torch particles the tile loop spawned,
      what the player's movement code reported, the click spark's draws and the
      volley's draws. */
  datatype TickInput = TickInput(spawned: seq<Particle>, moved: Movement, click: ClickDraw, volley: seq<LaneDraw>)

  predicate ValidTickInput(t: TickInput)
  {
    ValidClickDraw(t.click) && ValidVolleyDraws(t.volley)
  }

  /** What the passes before the level mechanics leave alone: the level, the map,
      the clock, the inputs, the shake, the number of projectiles and whether there
      is a player. */
  predicate SameCore(a: Data, b: Data)
  {
    && a.handler == b.handler && a.edges == b.edges && a.totalTime == b.totalTime
    && a.leftClicked == b.leftClicked && a.inputs == b.inputs && a.screenshake == b.screenshake
    && |a.projectiles| == |b.projectiles| && a.player.Some? == b.player.Some?
  }

  /** The scroll-offset block: the camera follows the player and is clamped to the map. */
  function Scroll(d: Data, c: Config): (r: Data)
    requires d.player.Some? && Finite(d.edges)
    ensures r == d.(offset := r.offset)
    ensures r.offset.x + c.width as real <= d.edges.right.v as real
            && r.offset.y + c.height as real <= d.edges.bottom.v as real
  {
    var p := d.player.value;
    d.(offset := Camera(d.offset, Vec(p.x, p.y), d.edges, c.width, c.height))
  }

  /** While the game is on, the torch particles the tile loop spawned are added and the
      player takes its physics step; otherwise nothing changes. */
  function PlayerPhase(d: Data, t: TickInput): (r: Data)
    requires d.player.Some?
    ensures d.handler.state != GameOn ==> r == d
    ensures d.handler.state == GameOn ==>
              r == d.(particles := d.particles + t.spawned,
                      player := Some(Entities.Update(d.player.value, d.inputs, t.moved, d.leftClicked)))
    ensures SameCore(d, r) && r.offset == d.offset
  {
    if d.handler.state == GameOn then
      d.(particles := d.particles + t.spawned,
         player := Some(Entities.Update(d.player.value, d.inputs, t.moved, d.leftClicked)))
    else d
  }

  /** The particle, projectile, circle and spark passes, a left click adding a spark
      just before the spark pass.  Only the particle pass can fail (an unknown type). */
  function Passes(d: Data, c: Config, t: TickInput, clicked: bool): (r: Result<Data>)
    requires ValidTickInput(t)
    ensures r.Ok? <==> StepParticles(d.particles, 0.0, c.strips, d.handler.state == GameOn).Ok?
    ensures r.Err? ==> r.fault.UnknownParticleType?
    ensures r.Ok? ==> SameCore(d, r.value) && r.value.offset == d.offset
    ensures r.Ok? ==> r.value.projectiles == MoveProjectiles(d.projectiles)
                      && r.value.circles == UpdateCircles(d.circles)
                      && r.value.sparks == UpdateSparks(c.cos, c.sin, if clicked then d.sparks + [ClickSpark(t.click)] else d.sparks)
    // the particle list is the particle pass's result, and nothing outside the four lists changes
    ensures r.Ok? ==> r.value.particles == StepParticles(d.particles, 0.0, c.strips, d.handler.state == GameOn).value
                      && r.value == d.(particles := r.value.particles, projectiles := r.value.projectiles,
                                       circles := r.value.circles, sparks := r.value.sparks)
  {
    var ps :- StepParticles(d.particles, 0.0, c.strips, d.handler.state == GameOn);
    var ss := if clicked then d.sparks + [ClickSpark(t.click)] else d.sparks;
    Ok(d.(particles := ps,
          projectiles := MoveProjectiles(d.projectiles),
          circles := UpdateCircles(d.circles),
          sparks := UpdateSparks(c.cos, c.sin, ss)))
  }

  /** Everything of a tick before the level mechanics. */
  function BeforeMechanics(app: App, c: Config, t: TickInput): (r: Result<Data>)
    requires ValidTickInput(t) && Finite(app.data.edges)
    ensures app.data.player.None? ==> r == Err(NoPlayer)
    ensures r.Err? ==> r.fault == NoPlayer || r.fault.UnknownParticleType?
    ensures r.Ok? ==> SameCore(app.data.(leftClicked := app.leftClicked, totalTime := app.data.totalTime + 1), r.value)
    ensures r.Ok? ==> r.value.projectiles == MoveProjectiles(app.data.projectiles)
    ensures r.Ok? ==> r.value.offset.x + c.width as real <= app.data.edges.right.v as real
                      && r.value.offset.y + c.height as real <= app.data.edges.bottom.v as real
  {
    var d0 := app.data.(leftClicked := app.leftClicked, totalTime := app.data.totalTime + 1);
    if d0.player.None? then Err(NoPlayer)
    else Passes(PlayerPhase(Scroll(d0, c), t), c, t, app.leftClicked)
  }

  /** The data-changing part of App.render, in source order: copy the click flag and
      count the frame; scroll the camera; while the game is on, add the torch
      particles and step the player; the particle pass (updates only while the game
      is on); the projectile, circle and spark passes; the level mechanics; the shake
      countdown. */
  function Tick(app: App, c: Config, t: TickInput): (r: Result<Data>)
    requires ValidTickInput(t)
    requires Finite(app.data.edges)
    ensures app.data.player.None? ==> r == Err(NoPlayer)
    ensures r.Ok? ==> var d := r.value;
                      && d.totalTime == app.data.totalTime + 1
                      && d.leftClicked == app.leftClicked
                      && d.handler.state == app.data.handler.state
                      && d.edges == app.data.edges
                      && d.player.Some?
                      && d.inputs == app.data.inputs
    // the view stays inside the map
    ensures r.Ok? ==> r.value.offset.x + c.width as real <= app.data.edges.right.v as real
                      && r.value.offset.y + c.height as real <= app.data.edges.bottom.v as real
  {
    var d :- BeforeMechanics(app, c, t);
    var d1 :- LevelMechanics(d, c.width, t.volley);
    Ok(d1.(screenshake := Countdown(d1.screenshake)))
  }

  /** A tick that fires the volley leaves a shake of 7 (set to 8, counted down once),
      fourteen more projectiles, and the timer at 1. */
  lemma FiringTick(app: App, c: Config, t: TickInput)
    requires ValidTickInput(t) && Finite(app.data.edges)
    requires app.data.player.Some? && Fires(app.data.handler)
    requires Tick(app, c, t).Ok?
    ensures Tick(app, c, t).value.screenshake == 7
    ensures |Tick(app, c, t).value.projectiles| == |app.data.projectiles| + VOLLEY_SIZE
    ensures Tick(app, c, t).value.handler.levelTimer == 1
    // the old projectiles have moved one step, and the volley column sits at the scrolled view
    ensures var r := Tick(app, c, t).value;
            && r.projectiles[..|app.data.projectiles|] == MoveProjectiles(app.data.projectiles)
            && r.projectiles[|app.data.projectiles|..] == VolleyProjectiles(c.width, r.offset, t.volley)
  {
  }

  /** A tick that does not fire adds no projectile and never raises the shake. */
  lemma QuietTick(app: App, c: Config, t: TickInput)
    requires ValidTickInput(t) && Finite(app.data.edges)
    requires !Fires(app.data.handler)
    requires Tick(app, c, t).Ok?
    ensures |Tick(app, c, t).value.projectiles| == |app.data.projectiles|
    ensures Tick(app, c, t).value.screenshake == Countdown(app.data.screenshake)
  {
  }

  /** A tick keeps the level invariant, and with it the `dsta` fault can never happen:
      from a reachable state a tick fails only when a particle's type is unknown. */
  lemma TickKeepsInvariant(app: App, c: Config, t: TickInput)
    requires ValidTickInput(t) && Finite(app.data.edges)
    requires LevelInvariant(app.data.handler)
    ensures Tick(app, c, t).Ok? ==> LevelInvariant(Tick(app, c, t).value.handler)
    ensures Tick(app, c, t) != Err(MissingAttribute("dsta"))
    ensures Tick(app, c, t).Err? && app.data.player.Some? ==> Tick(app, c, t).fault.UnknownParticleType?
  {
    var b := BeforeMechanics(app, c, t);
    if b.Ok? {
      LevelMechanicsKeepsInvariant(b.value, c.width, t.volley);
    }
  }

  /** After a reset there is no player, so the next tick fails. */
  lemma TickAfterReset(app: App, c: Config, t: TickInput)
    requires ValidTickInput(t) && Finite(app.data.edges)
    ensures Tick(app.(data := Reset(app.data)), c, t) == Err(NoPlayer)
  {
  }

  // ---------------------------------------------------------------- input events

  datatype Key = KeyA | KeyD | KeyW | KeyS | KeyP | Key1 | OtherKey

  datatype Event = Quit | KeyDown(key: Key) | KeyUp(key: Key) | MouseDown(button: int) | MouseUp(button: int)

  /** A key press.  The 1 key exits; A, D and W set the three movement inputs, W also
      makes the player jump; S sets a shake of 6; P toggles the pause. */
  function KeyPressed(app: App, k: Key): (r: Result<App>)
    ensures r.Err? <==> k == KeyW && app.data.player.None?
    ensures r.Err? ==> r.fault == NoPlayer
    ensures r.Ok? ==> (r.value.exited <==> k == Key1 || app.exited)
    ensures r.Ok? ==> r.value.data.inputs.spare == app.data.inputs.spare
    ensures r.Ok? ==> r.value.leftClicked == app.leftClicked
    ensures k == KeyA ==> r == Ok(app.(data := app.data.(inputs := app.data.inputs.(left := true))))
    ensures k == KeyD ==> r == Ok(app.(data := app.data.(inputs := app.data.inputs.(right := true))))
    ensures k == KeyW && app.data.player.Some?
            ==> r == Ok(app.(data := app.data.(inputs := app.data.inputs.(up := true),
                                               player := Some(DoJump(app.data.player.value)))))
    ensures k == KeyS ==> r == Ok(app.(data := app.data.(screenshake := 6)))
    ensures k == KeyP ==> r == Ok(app.(data := app.data.(handler := TogglePause(app.data.handler))))
    ensures k in {Key1, OtherKey} ==> r.Ok? && r.value.data == app.data
  {
    var d := app.data;
    match k
    case Key1 => Ok(app.(exited := true))
    case KeyA => Ok(app.(data := d.(inputs := d.inputs.(left := true))))
    case KeyD => Ok(app.(data := d.(inputs := d.inputs.(right := true))))
    case KeyW =>
      if d.player.None? then Err(NoPlayer)
      else Ok(app.(data := d.(inputs := d.inputs.(up := true), player := Some(DoJump(d.player.value)))))
    case KeyS => Ok(app.(data := d.(screenshake := 6)))
    case KeyP => Ok(app.(data := d.(handler := TogglePause(d.handler))))
    case OtherKey => Ok(app)
  }

  /** A key release clears the input of A, D or W. */
  function KeyReleased(app: App, k: Key): (r: App)
    ensures r == app.(data := app.data.(inputs := r.data.inputs))
    ensures r.data.inputs.left == (app.data.inputs.left && k != KeyA)
    ensures r.data.inputs.right == (app.data.inputs.right && k != KeyD)
    ensures r.data.inputs.up == (app.data.inputs.up && k != KeyW)
    ensures r.data.inputs.spare == app.data.inputs.spare
  {
    var d := app.data;
    match k
    case KeyA => app.(data := d.(inputs := d.inputs.(left := false)))
    case KeyD => app.(data := d.(inputs := d.inputs.(right := false)))
    case KeyW => app.(data := d.(inputs := d.inputs.(up := false)))
    case _ => app
  }

  /** Buttons 1 and 3 set (down) or clear (up) the left and right click flags. */
  function MouseButton(app: App, b: int, down: bool): (r: App)
    ensures r == app.(leftClicked := r.leftClicked, rightClicked := r.rightClicked)
    ensures r.leftClicked == if b == 1 then down else app.leftClicked
    ensures r.rightClicked == if b == 3 then down else app.rightClicked
  {
    if b == 1 then app.(leftClicked := down)
    else if b == 3 then app.(rightClicked := down)
    else app
  }

  /** One event of App.check_inputs.  Quit exits; the rest are key presses and
      releases and mouse button changes. */
  function HandleEvent(app: App, e: Event): (r: Result<App>)
    ensures r.Err? <==> e == KeyDown(KeyW) && app.data.player.None?
    ensures r.Ok? ==> (r.value.exited <==> e in {Quit, KeyDown(Key1)} || app.exited)
    ensures r.Ok? ==> r.value.data.inputs.spare == app.data.inputs.spare
                      && r.value.data.totalTime == app.data.totalTime
    // only P changes the game state, and nothing changes the level, the map or the effects
    ensures r.Ok? ==> var h := r.value.data.handler;
                      h == app.data.handler.(state := h.state)
                      && (h.state != app.data.handler.state ==> e == KeyDown(KeyP))
    ensures r.Ok? ==> r.value.data.projectiles == app.data.projectiles
                      && r.value.data.sparks == app.data.sparks
                      && r.value.data.particles == app.data.particles
                      && r.value.data.circles == app.data.circles
                      && r.value.data.edges == app.data.edges
  {
    match e
    case Quit => Ok(app.(exited := true))
    case KeyDown(k) => KeyPressed(app, k)
    case KeyUp(k) => Ok(KeyReleased(app, k))
    case MouseDown(b) => Ok(MouseButton(app, b, true))
    case MouseUp(b) => Ok(MouseButton(app, b, false))
  }

  /** The event loop of check_inputs: events in order, stopping at an exit. */
  function HandleEvents(app: App, es: seq<Event>): (r: Result<App>)
    ensures app.exited ==> r == Ok(app)
    // the batch ends with the process gone exactly when it was gone or some event quits
    ensures r.Ok? ==> (r.value.exited <==> app.exited || exists i :: 0 <= i < |es| && es[i] in {Quit, KeyDown(Key1)})
    ensures r.Ok? ==> r.value.data.totalTime == app.data.totalTime
                      && r.value.data.inputs.spare == app.data.inputs.spare
    decreases |es|
  {
    if es == [] || app.exited then Ok(app)
    else
      var a :- HandleEvent(app, es[0]);
      assert forall i :: 1 <= i < |es| ==> es[i] == es[1..][i - 1];
      HandleEvents(a, es[1..])
  }

  /** sys.exit ends check_inputs: the events after the first quit (or key 1) are
      never handled, so the batch gives what its prefix up to that event gives. */
  lemma {:induction false} HandleEventsStopsAtQuit(app: App, es: seq<Event>, i: nat)
    requires i < |es| && es[i] in {Quit, KeyDown(Key1)}
    ensures HandleEvents(app, es) == HandleEvents(app, es[..i + 1])
    ensures HandleEvents(app, es).Ok? ==> HandleEvents(app, es).value.exited
    decreases i
  {
    var pre := es[..i + 1];
    assert pre[0] == es[0];
    if !app.exited {
      var r := HandleEvent(app, es[0]);
      if r.Ok? {
        if i == 0 {
          assert pre[1..] == [];
        } else {
          assert es[1..][i - 1] == es[i];
          assert pre[1..] == es[1..][..i];
          HandleEventsStopsAtQuit(r.value, es[1..], i - 1);
        }
      }
    }
  }

  /** Events never touch the level, its timer or the projectiles: only the P key moves
      the game state. */
  lemma {:induction false} EventsKeepLevel(app: App, es: seq<Event>)
    ensures HandleEvents(app, es).Ok? ==>
              var h := HandleEvents(app, es).value.data.handler;
              h == app.data.handler.(state := h.state)
              && HandleEvents(app, es).value.data.projectiles == app.data.projectiles
              && HandleEvents(app, es).value.data.edges == app.data.edges
    decreases |es|
  {
    if es != [] && !app.exited {
      var r := HandleEvent(app, es[0]);
      if r.Ok? {
        EventsKeepLevel(r.value, es[1..]);
      }
    }
  }

  /** Pressing and releasing a movement key in one batch leaves its input clear. */
  lemma PressRelease(app: App, k: Key)
    requires !app.exited && k in {KeyA, KeyD}
    ensures HandleEvents(app, [KeyDown(k), KeyUp(k)]).Ok?
    ensures var i := HandleEvents(app, [KeyDown(k), KeyUp(k)]).value.data.inputs;
            i == app.data.inputs.(left := if k == KeyA then false else app.data.inputs.left,
                                  right := if k == KeyD then false else app.data.inputs.right)
  {
    var a1 := HandleEvent(app, KeyDown(k)).value;
    assert [KeyDown(k), KeyUp(k)][1..] == [KeyUp(k)];
    assert HandleEvents(a1, [KeyUp(k)]) == HandleEvent(a1, KeyUp(k));
  }

  // ---------------------------------------------------------------- the game loop

  /** One pass of App.run: handle the pending events, then render a tick with the
      click flag they left (the clock wait of App.update changes no modelled state). */
  datatype Frame = Frame(events: seq<Event>, input: TickInput)

  function RunFrame(app: App, c: Config, f: Frame): (r: Result<App>)
    requires ValidTickInput(f.input) && Finite(app.data.edges)
    ensures app.exited ==> r == Ok(app)
    ensures r.Ok? ==> r.value.data.edges == app.data.edges
    // a frame renders exactly once unless its events ended the process
    ensures r.Ok? && !r.value.exited ==> r.value.data.totalTime == app.data.totalTime + 1
    ensures r.Ok? && r.value.exited ==> r.value.data.totalTime == app.data.totalTime
  {
    EventsKeepLevel(app, f.events);
    var a :- HandleEvents(app, f.events);
    if a.exited then Ok(a)
    else
      var d :- Tick(a, c, f.input);
      Ok(a.(data := d))
  }

  predicate ValidFrames(fs: seq<Frame>)
  {
    forall i :: 0 <= i < |fs| ==> ValidTickInput(fs[i].input)
  }

  function RunFrames(app: App, c: Config, fs: seq<Frame>): (r: Result<App>)
    requires ValidFrames(fs) && Finite(app.data.edges)
    ensures r.Ok? ==> r.value.data.edges == app.data.edges
    decreases |fs|
  {
    if fs == [] || app.exited then Ok(app)
    else
      EventsKeepLevel(app, fs[0].events);
      var a :- RunFrame(app, c, fs[0]);
      RunFrames(a, c, fs[1..])
  }

  /** Once the level timer is running, no later frame adds a projectile. */
  lemma {:induction false} NoVolleyOnceTimerRuns(app: App, c: Config, fs: seq<Frame>)
    requires ValidFrames(fs) && Finite(app.data.edges)
    requires LevelInvariant(app.data.handler) && app.data.handler.levelTimer > 0
    ensures RunFrames(app, c, fs).Ok? ==>
              |RunFrames(app, c, fs).value.data.projectiles| == |app.data.projectiles|
    decreases |fs|
  {
    if fs != [] && !app.exited {
      EventsKeepLevel(app, fs[0].events);
      var r := RunFrame(app, c, fs[0]);
      if r.Ok? {
        var a := HandleEvents(app, fs[0].events).value;
        if !a.exited {
          TickKeepsInvariant(a, c, fs[0].input);
          QuietTick(a, c, fs[0].input);
        }
        assert ValidFrames(fs[1..]);
        NoVolleyOnceTimerRuns(r.value, c, fs[1..]);
      }
    }
  }

  /** The volley fires at most once in a whole run: however many frames pass, at most
      fourteen projectiles are added. */
  lemma {:induction false} VolleyFiresAtMostOnce(app: App, c: Config, fs: seq<Frame>)
    requires ValidFrames(fs) && Finite(app.data.edges)
    requires LevelInvariant(app.data.handler)
    ensures RunFrames(app, c, fs).Ok? ==>
              |RunFrames(app, c, fs).value.data.projectiles| <= |app.data.projectiles| + VOLLEY_SIZE
    decreases |fs|
  {
    if fs != [] && !app.exited {
      EventsKeepLevel(app, fs[0].events);
      var r := RunFrame(app, c, fs[0]);
      if r.Ok? {
        var a := HandleEvents(app, fs[0].events).value;
        assert ValidFrames(fs[1..]);
        if a.exited {
          VolleyFiresAtMostOnce(r.value, c, fs[1..]);
        } else {
          TickKeepsInvariant(a, c, fs[0].input);
          if Fires(a.data.handler) {
            FiringTick(a, c, fs[0].input);
            NoVolleyOnceTimerRuns(r.value, c, fs[1..]);
          } else {
            QuietTick(a, c, fs[0].input);
            VolleyFiresAtMostOnce(r.value, c, fs[1..]);
          }
        }
      }
    }
  }
}
